=== FILE: README.md ===
# Autonomous merchant operations: the decision core

This project models the deterministic core of a multi-agent back end that
runs a merchant's daily operations. Each stage reads a shared blackboard
state and returns a partial update, and the workflow runtime merges that
update into the state before it picks the next stage. The stages are:

- **coordinator**: resets the tracking fields and may load bounded input lists.
- **support agent**: classifies customer messages through an inference collaborator and derives a complaint-spike flag.
- **catalog agent**: normalises products through a collaborator and derives a schema-validation flag.
- **safety gate**: sends a run with a spike to the **throttler**, which freezes everything.
- **pricing agent**: a rule engine that proposes one price per product.
- **validator**: a stage whose definition is not part of this model.
- **conflict resolver**: turns proposals into final actions through a fixed priority chain, then adds warnings, an alert level, a summary and recommendations.

The model is split by module:

- `common.dfy`: `Option` and two sequence helpers.
- `records.dfy`: the records that travel through the pipeline. The text the source formats is replaced by typed constructors that carry the same numbers.
- `state.dfy`: the blackboard and its merge policy. Five list fields accumulate by concatenation; every other field is last-write-wins.
- `pricing_agent.dfy`: the pricing rule engine.
- `support_agent.dfy` and `catalog_agent.dfy`: the post-processing around the two collaborators. Each collaborator is a function parameter applied to the bounded prefix the source sends.
- `nodes.dfy`: the coordinator, the throttler and the resolver with its recommendations.
- `graph.dfy`: the two gates, the topology, and whole runs.

A run is a walk over the acyclic node graph. Every stage is looked up in a
registry, just as the source registers a function under each node name. A
predicate `Registered` ties every entry except the validator to the stage
defined here. The validator's entry is left arbitrary, so every run
property is proved for every possible validator.

Absent dictionary keys are `None`. Falsy values are modelled where the
source relies on them:

- A competitor price that is missing and one that is `0` both mean "no competitor", so `0` represents both.
- An issue's `product_id` counts only when it is non-empty; otherwise its `id` is used.
- An absent spike flag reads as safe.

Floats are modelled as mathematical reals.

The pricing engine's negative-sentiment clamp can never fire.
`Pricing.NegativeSentimentClampIsInert` proves this: the competitor rule
never proposes more than the current price, and no other rule runs before
the clamp. As a consequence, under negative sentiment a price rises only
when the cost floor raises it (`Pricing.NegativeSentimentNeverIncreasesButForFloor`).

Similarly, the resolver's cost-floor rule cannot produce an ADJUSTED
action for a proposal that pricing computed from a non-negative cost
(`Graph.PricedProposalsNeverAdjusted`). Such a proposal already sits at or
above cost × 1.05.

## Model

| member | source | states |
|---|---|---|
| Records.CriticalTypeCount | backend/nodes.py:225 | counts the issues of type "critical"; zero exactly when no issue has that type, never more than the number of issues |
| Blackboard.Append | backend/state.py:23-24 | an accumulating list field keeps the previous list as a prefix and gains exactly the update's list after it; an absent update leaves it unchanged |
| Blackboard.Replace | backend/state.py:27-29 | a plain field takes the update's value when the update has one and otherwise keeps its value |
| Blackboard.MergeAppendsLists | backend/state.py:23-47 | after a merge, each of normalized_catalog, catalog_issues, pricing_proposals, validation_flags and audit_log reads as the old list followed by the update's list |
| Blackboard.MergeReplacesScalars | backend/state.py:13-46 | every field without an add reducer is last-write-wins under a merge |
| Blackboard.MergeIdentity | backend/state.py:8-47 | an empty update changes nothing, and merging an update into the empty state yields the update |
| Blackboard.MergeAssociative | backend/state.py:8-47 | merging two updates in turn equals merging their combination, so merges compose |
| Blackboard.AppendAssociative | backend/state.py:23-24 | the list reducer is associative, also when lists are absent |
| Blackboard.MergeKeepsPrefix | backend/state.py:23-47 | no stage can shrink or rewrite an accumulating list: its old contents survive as a prefix |
| Blackboard.EmptyListsDoNotReset | backend/nodes.py:53-62 | an update that sets the list fields to empty lists does not clear them under the add reducer |
| Blackboard.Merge | backend/state.py:8-47 | merging the empty update changes nothing, the audit log only grows, and locks written by the update replace the old ones |
| Pricing.CompetitorPrice | backend/agents/pricing_agent.py:34-39 | the competitor price is the one from the first context entry for the product (0 when that entry has none) and 0 when no entry matches |
| Pricing.CompetitorStep | backend/agents/pricing_agent.py:46-51 | the competitor rule never raises the price; it records the competitor signal exactly when a competitor price is present; when that price is below 95% of the current one it records the match reason and moves the price to min(current, competitor + 5), and otherwise it records no reason and keeps the current price |
| Pricing.SentimentStep | backend/agents/pricing_agent.py:53-64 | exactly one sentiment signal is appended and earlier reasons are kept; negative sentiment caps the price at the current one and records the block reason exactly when it lowered the price; non-negative sentiment with no competitor or a dearer one sets min(price, current) × 1.10 and records the +10% margin reason; otherwise nothing but the signal changes |
| Pricing.FloorStep | backend/agents/pricing_agent.py:66-71 | the result is at least cost × 1.05 and at least the incoming price; a price already at the floor passes unchanged; a lower one becomes the floor, with the floor reason and signal appended |
| Pricing.PlanFor | backend/agents/pricing_agent.py:41-71 | the final price is at least cost × 1.05, and is either the pre-floor price or the floor itself; the pre-floor signals and reasons survive as prefixes |
| Pricing.StatusOf | backend/agents/pricing_agent.py:73-81 | HOLD exactly when the proposed price equals the current one, INCREASE exactly when above, DECREASE exactly when below |
| Pricing.PriceProduct | backend/agents/pricing_agent.py:29-94 | a proposal carries the product's id ("unknown" if missing), its name ("Unknown"), its current price and cost (half the price if missing); its proposed price and signals are those of the three-rule plan for the product's competitor price, and its reasons are the plan's, or "no changes" alone for a HOLD without reasons; every proposal has at least one reason; the price is never under cost × 1.05; the status agrees with the prices; under negative sentiment an increase happens only at the cost floor |
| Pricing.PriceAll | backend/agents/pricing_agent.py:27-94 | one proposal per product, in catalog order, each the single-product proposal |
| Pricing.PricingNode | backend/agents/pricing_agent.py:19-98 | the stage writes only pricing_proposals: the per-product proposals for the normalised catalog (or the raw product data when that key is absent), the pricing context and the sentiment score (0 when absent) |
| Pricing.NoCompetitorNoSignal | backend/agents/pricing_agent.py:46-51 | without a competitor price no competitor signal is recorded and no undercut happens |
| Pricing.UndercutRule | backend/agents/pricing_agent.py:46-64 | a competitor priced below 95% of the current price moves the pre-floor price to min(current, competitor + 5), and no margin adjustment follows |
| Pricing.MarginRule | backend/agents/pricing_agent.py:60-64 | with non-negative sentiment and no competitor or a dearer one, the pre-floor price is exactly current × 1.10 |
| Pricing.NegativeSentimentClampIsInert | backend/agents/pricing_agent.py:53-59 | under negative sentiment the clamp never changes the price and its reason is never recorded, because the price before it is at most the current price |
| Pricing.FloorRule | backend/agents/pricing_agent.py:66-71 | the final price is at least cost × 1.05 and at least the pre-floor price; the floor signal is recorded exactly when the floor raised the price, and then the price equals the floor |
| Pricing.NegativeSentimentNeverIncreasesButForFloor | backend/agents/pricing_agent.py:12-16 | under negative sentiment a proposal exceeds the current price only when the cost floor alone put it there |
| Pricing.SignalOrder | backend/agents/pricing_agent.py:44-71 | the signals are the competitor price if there is one, then exactly one sentiment entry, then the cost floor if it was applied |
| Pricing.HoldReasoning | backend/agents/pricing_agent.py:73-77 | "no changes" appears only as the sole reason, and HOLD means the proposed price equals the current one |
| Pricing.FloorOverridesUndercutExample | backend/agents/pricing_agent.py:29-94 | price 100, cost 60, competitor 50 and sentiment 0.2 yield a DECREASE to 63: the undercut to 55 is overridden by the floor, with all three signals recorded |
| Support.ComplaintCount | backend/agents/support_agent.py:115 | the complaint count never exceeds the total, is zero exactly when no classification is a complaint, and equals the total exactly when all are (so a single classification counts 1 exactly when it is a complaint) |
| Support.ComplaintCountAppend | backend/agents/support_agent.py:115 | the count of a concatenation is the sum of the counts; with the one-element case this fixes every count |
| Support.SpikeRule | backend/agents/support_agent.py:115-119 | a spike is raised exactly when the collaborator flags one, the velocity exceeds 7, or complaints are strictly more than half of the classifications |
| Support.ComplaintRatio | backend/agents/support_agent.py:116 | the complaint share lies in [0, 1] and exceeds one half exactly when complaints are more than half of the classifications |
| Support.ShareBounds | backend/agents/support_agent.py:116-119 | a share n/d of a positive whole lies in [0, 1] and exceeds one half exactly when 2n > d |
| Support.SupportAgent | backend/agents/support_agent.py:27-151 | no messages give "no_data", sentiment 0 and no spike; a collaborator call that fails after the client is created gives the error record, sentiment 0 and no spike; a successful call on the first twenty messages yields an analysis of its classifications, sentiment (0 if missing), velocity, topics, the total of all messages and its complaint count, with the collaborator's sentiment and the spike rule's verdict |
| Support.SupportNode | backend/agents/support_agent.py:135-139 | the stage writes exactly the summary, the sentiment score and the spike flag the agent derived |
| Support.ThresholdsAreStrict | backend/agents/support_agent.py:118-119 | velocity exactly 7 with exactly half complaints does not trip the spike |
| Support.OnlyFirstTwentyAnalysed | backend/agents/support_agent.py:72-80 | two message lists that agree on their first twenty messages get the same sentiment, spike and analysis, apart from the message total |
| Support.VelocityAloneTripsSpike | backend/agents/support_agent.py:108-119 | a collaborator reporting no spike but velocity 8 still trips the spike |
| Catalog.CatalogAgent | backend/agents/catalog_agent.py:25-100 | no products give one "error" issue and a failed schema check; a collaborator call that fails after the client is created keeps the raw products with one "error" issue; a successful call on the first five products yields its normalised products and issues (empty if missing); the schema passes exactly when the call returned, its confidence (0.8 if missing) exceeds 0.6, and no issue is of type "critical" |
| Catalog.CatalogNode | backend/agents/catalog_agent.py:88-92 | the stage writes exactly the normalised catalog, the issues and the schema flag |
| Catalog.MissingConfidencePasses | backend/agents/catalog_agent.py:79-82 | a result without a confidence score passes exactly when it reports no critical issue |
| Catalog.FallbacksRecordOneError | backend/agents/catalog_agent.py:94-100 | on both fallback paths the schema check fails, exactly one "error" issue is recorded, and the raw products stand as the normalised catalog |
| Nodes.CoordinatorNode | backend/nodes.py:12-90 | the coordinator always sets the retry count to 0, empties the locks and logs workflow_started with the merchant id ("unknown" if absent); it never sets the spike or throttle flags; loaded inputs are bounded to 10 products, 20 messages and 5 context rows, and the lists it writes are empty |
| Nodes.LoadedUpdate | backend/nodes.py:53-77 | a load writes the first 10 products, 20 messages and 5 context rows, keeping shorter lists whole; it sets competitor data, issues and proposals to empty lists and the summary and report to empty records, and leaves merchant id, log, locks and retry count alone |
| Nodes.CoordinatorKeepsLists | backend/nodes.py:53-90 | after the coordinator's update is merged, the issues, proposals, normalised catalog and flags from earlier are still there, while the locks are empty and the retry count is 0 |
| Nodes.ThrottlerNode | backend/nodes.py:93-131 | the throttler turns throttle mode on and writes a FROZEN, RED report with no actions, the support summary, the four fixed recommendations in order, and an alert carrying the summary's velocity and sentiment; it logs throttler_activated and writes nothing else |
| Nodes.SpikeAlertOf | backend/nodes.py:102-110 | the alert message carries the summary's velocity and sentiment, and 0 for both when the summary is not an analysis |
| Nodes.CriticalIds | backend/nodes.py:153-160 | a product is in the critical set exactly when some issue of type "critical" or severity "high" names it, by a non-empty product_id or else by its id |
| Nodes.Decide | backend/nodes.py:167-222 | the action carries its proposal; LOCKED exactly for locked products; LOCKED and BLOCKED keep the current price; APPROVED takes the proposed price and has no note; the warning names the product and is a cost-floor warning for ADJUSTED, a catalog warning for a BLOCKED critical product, a sentiment warning for any other BLOCKED one, and absent otherwise; with a non-negative cost, an unlocked and unblocked price is never below cost |
| Nodes.FirstMatch | backend/nodes.py:173-222 | first-match evaluation of an ordered rule list decides exactly when some rule applies |
| Nodes.FirstMatchWins | backend/nodes.py:173-222 | the decision of first-match evaluation is that of the earliest rule that applies |
| Nodes.DecideIsPriorityOrder | backend/nodes.py:173-222 | the resolver's chain is first-match evaluation of lock, catalog, sentiment, cost floor and approval, in that order |
| Nodes.StatusCharacterisation | backend/nodes.py:173-222 | BLOCKED exactly for unlocked products that are critical or whose increase meets sentiment below -0.3; ADJUSTED exactly for the rest priced below cost; APPROVED exactly for the remainder |
| Nodes.Actions | backend/nodes.py:166-222 | one action per proposal, in order, each the chain's decision |
| Nodes.CountStatus | backend/nodes.py:237-239 | a status count never exceeds the number of actions, is zero exactly when no action has the status, and equals the total exactly when all have it |
| Nodes.CountStatusAppend | backend/nodes.py:237-239 | the count of a concatenation is the sum of the counts, which with the one-element case fixes every count |
| Nodes.Warnings | backend/nodes.py:166-222 | there is one warning per BLOCKED or ADJUSTED action, and a warning occurs exactly when some proposal's decision issues it |
| Nodes.WarningsAppend | backend/nodes.py:166-222 | warnings are collected proposal by proposal, in order: the warnings of two concatenated proposal lists are those of the first followed by those of the second |
| Nodes.StatusesPartition | backend/nodes.py:235-240 | every action has exactly one of the four statuses |
| Nodes.AlertLevelOf | backend/nodes.py:224-226 | RED exactly when an issue is of type "critical"; YELLOW exactly when none is and a warning exists; GREEN otherwise |
| Nodes.Recommendations | backend/nodes.py:258-281 | recommendations are never empty and keep a fixed order; each one appears exactly when its condition holds; "all systems normal" appears exactly when none of the others does, and then alone |
| Nodes.RecommendationsAreTheFive | backend/nodes.py:258-281 | no recommendation outside the five the resolver can issue, with the counts it was given, ever appears |
| Nodes.ResolverNode | backend/nodes.py:134-255 | the resolver writes only a COMPLETED report and one workflow_completed entry; the actions are the priority chain applied to each proposal, with the state's locks, the critical ids of its issues and its sentiment; the warnings, alert level, summary counts and recommendations are those derived from these actions and issues; the report carries the state's issues and support summary |
| Nodes.SummaryMissesOnlyAdjusted | backend/nodes.py:235-240 | approved, blocked and locked counts fall short of the total by exactly the number of ADJUSTED actions, which the summary does not report |
| Nodes.ReportWarningsAndAlert | backend/nodes.py:224-246 | the report's warnings number the BLOCKED plus ADJUSTED actions; the alert is RED exactly on a critical-type issue; a GREEN report has no blocked or adjusted action |
| Nodes.NoLocksNoLocked | backend/nodes.py:173-181 | with no merchant locks no action is LOCKED |
| Nodes.SeverityHighAloneIsYellow | backend/nodes.py:156 | a high-severity issue of another type blocks its product but raises the alert only to YELLOW |
| Graph.SafetyGate | backend/graph.py:15-27 | unsafe exactly when the spike flag is present and true |
| Graph.SchemaGate | backend/graph.py:30-46 | retry exactly when validation failed and fewer than 2 retries were made; invalid exactly when it failed with 2 or more; valid exactly when it did not fail, an absent flag counting as passed |
| Graph.Successor | backend/graph.py:64-84 | every edge leads closer to the end, and only the throttler and the resolver end a run |
| Graph.RunFrom | backend/graph.py:61-87 | every run visits at least the node it starts at and ends at the throttler or the resolver |
| Graph.Run | backend/graph.py:61-87 | every run starts at the coordinator and ends at the throttler or the resolver |
| Graph.GateSeesSupportSpike | backend/graph.py:64-76 | the gate sees exactly the spike flag the support agent derived from the coordinator's messages, and routes to the throttler exactly when that flag is set |
| Graph.RunPrefix | backend/graph.py:62-76 | every run starts with coordinator, support agent and catalog agent, then continues at the gate's choice from the state they leave |
| Graph.RunPrefixSafe | backend/graph.py:68-76 | without a spike, the run continues from the gate state with pricing |
| Graph.RunPrefixUnsafe | backend/graph.py:68-76 | with a spike, the run continues from the gate state with the throttler |
| Graph.GateLists | backend/graph.py:62-66 | up to the gate no proposal or validation flag is added, and the locks are empty |
| Graph.ThrottledFinal | backend/nodes.py:112-131 | merging the throttler's update yields a FROZEN report with no actions and throttle mode on, keeps proposals and flags, and appends throttler_activated |
| Graph.UnsafeTrace | backend/graph.py:68-84 | with a spike the run is exactly coordinator, support, catalog, throttler |
| Graph.UnsafeRun | backend/graph.py:68-84 | a spike freezes the run: pricing, validator and resolver never run, no proposal or flag is added, the report is FROZEN with no actions, and the log gains exactly workflow_started and throttler_activated |
| Graph.GateAudit | backend/graph.py:62-66 | at the gate the audit log is the input's log followed by workflow_started |
| Graph.SafeTail | backend/graph.py:78-84 | from a safe gate the run is pricing, validator, resolver |
| Graph.SafeRun | backend/graph.py:61-84 | without a spike the run is exactly coordinator, support, catalog, pricing, validator, resolver |
| Graph.SafeFinalReport | backend/graph.py:78-84 | whatever the validator does, a safe run ends with a COMPLETED report |
| Graph.SafeFinalAudit | backend/graph.py:78-84 | after the gate the log gains the validator's entries and then, last, workflow_completed |
| Graph.SafeRunAudit | backend/graph.py:61-84 | a safe run's log is the input's entries, workflow_started, the validator's entries, then workflow_completed |
| Graph.SafeFinalNeverLocks | backend/nodes.py:173-181 | with locks emptied before pricing and a validator that leaves them alone, no action is LOCKED |
| Graph.SafeRunNeverLocks | backend/nodes.py:82-90 | because the coordinator empties the locks, a full safe run whose validator leaves them alone never produces a LOCKED action |
| Graph.PricedProposalsNeverAdjusted | backend/nodes.py:206-215 | the resolver's cost-floor rule never fires on proposals pricing computed from non-negative costs |
| Graph.RetryCountOnlyReset | backend/nodes.py:82-84 | no stage but the validator sets the retry count to anything other than 0 |
| Graph.OnlySafetyGateBranches | backend/graph.py:64-84 | only catalog_agent has a state-dependent successor, chosen by the safety gate alone; the schema gate is never consulted |

## Left out

- The validator stage is not part of this model. It is an arbitrary entry of the node registry, and the run lemmas hold for every choice of it; `Graph.SafeRunNeverLocks` assumes only that it does not write the locks.
- Pricing.PriceProduct: the proposed price is not rounded to two decimals. The stated floor (at least cost × 1.05) holds for the unrounded price; after rounding it can fall short by up to half a cent.
- Graph.PricedProposalsNeverAdjusted: holds for unrounded prices; with rounding, costs under 0.1 could be adjusted.
- The text the source formats is represented by typed values carrying the same numbers. This covers signals, reasoning (and its " | " join), notes, warnings, recommendations and the throttler's alert message. Only the structure is modelled, not the strings.
- The two inference collaborators are function parameters. Prompts, model configuration, JSON parsing and the diagnostic messages printed on failure are out of scope.
- Only failures raised inside the collaborators' `try` blocks are modelled (`SupportFailed`, `CatalogFailed`). Both agents create the model client before their `try` (backend/agents/support_agent.py:39, backend/agents/catalog_agent.py:37). A missing API key or Azure setting makes that creation raise (backend/llm_config.py:80, 112, 117, 122). That error escapes the agent and ends the run without a support summary or final report, once the input list is non-empty.
- Graph.Run: states that every run ends at the throttler or the resolver. A run whose client creation raises is not modelled; it stops at the support agent with no report.
- Exceptions from converting malformed values are not modelled, e.g. `float(None)` for a key present with a null value. `None` always means an absent key, which reads as the source's default.
- CSV parsing and sample-data loading are parameters of the coordinator: `uploaded` is the parsed upload, `sample` what loading yields. An upload that is present but empty is not distinguished from no upload.
- Merchant locks are modelled as a set of product ids: only membership of the dictionary's keys is ever consulted.
- Console output, the front end, the connection checks and the test scripts are out of scope.
- The runtime's checkpointing and streaming are out of scope. Only the merge policy and the node order are modelled.

=== FILE: catalog_agent.dfy ===
/**
 * The deterministic part of the catalog agent: fallbacks for no products and
 * for a failed normalisation call, and the schema-validation predicate. The
 * normalisation collaborator is a function parameter applied to the first
 * five products.
 */
module Catalog {
  import opened Common
  import opened Records
  import opened Blackboard

  /** What the normalisation collaborator answers, keys possibly missing. */
  datatype CatalogResult = CatalogResult(normalized: Option<seq<Product>>, issues: Option<seq<Issue>>, confidence: Option<real>)

  datatype CatalogOutcome = CatalogReturned(result: CatalogResult) | CatalogFailed(error: string)

  /** The three keys the catalog agent writes. */
  datatype CatalogOutput = CatalogOutput(normalized: seq<Product>, issues: seq<Issue>, schemaPassed: bool)

  const SentProducts: nat := 5
  const ConfidenceThreshold: real := 0.6
  const DefaultConfidence: real := 0.8
  const NoProductsMessage: string := "No product data provided"

  /** The catalog agent over the raw products and the collaborator. */
  function CatalogAgent(products: seq<Product>, normalize: seq<Product> -> CatalogOutcome): (r: CatalogOutput)
    ensures products == [] ==> r == CatalogOutput([], [ErrorIssue(NoProductsMessage)], false)
    ensures products != [] && normalize(Take(products, SentProducts)).CatalogFailed? ==>
      r == CatalogOutput(products, [ErrorIssue(normalize(Take(products, SentProducts)).error)], false)
    ensures products != [] && normalize(Take(products, SentProducts)).CatalogReturned? ==>
      var res := normalize(Take(products, SentProducts)).result;
      r.normalized == res.normalized.GetOr([]) && r.issues == res.issues.GetOr([])
    ensures r.schemaPassed <==>
      && products != []
      && normalize(Take(products, SentProducts)).CatalogReturned?
      && normalize(Take(products, SentProducts)).result.confidence.GetOr(DefaultConfidence) > ConfidenceThreshold
      && forall k :: 0 <= k < |r.issues| ==> !IsCriticalType(r.issues[k])
  {
    if products == [] then CatalogOutput([], [ErrorIssue(NoProductsMessage)], false)
    else
      match normalize(Take(products, SentProducts))
      case CatalogFailed(e) => CatalogOutput(products, [ErrorIssue(e)], false)
      case CatalogReturned(res) =>
        var issues := res.issues.GetOr([]);
        var confidence := res.confidence.GetOr(DefaultConfidence);
        CatalogOutput(res.normalized.GetOr([]), issues,
                      confidence > ConfidenceThreshold && CriticalTypeCount(issues) == 0)
  }

  /** The catalog stage: appends to the normalised catalog and the issues, and sets the schema flag. */
  function CatalogNode(s: State, normalize: seq<Product> -> CatalogOutcome): (u: State)
    ensures u == Blank.(normalizedCatalog := u.normalizedCatalog, catalogIssues := u.catalogIssues,
                        schemaValidationPassed := u.schemaValidationPassed)
    ensures var out := CatalogAgent(s.productData.GetOr([]), normalize);
      && u.normalizedCatalog == Some(out.normalized)
      && u.catalogIssues == Some(out.issues)
      && u.schemaValidationPassed == Some(out.schemaPassed)
  {
    var out := CatalogAgent(s.productData.GetOr([]), normalize);
    Blank.(normalizedCatalog := Some(out.normalized), catalogIssues := Some(out.issues),
           schemaValidationPassed := Some(out.schemaPassed))
  }

  // ---------------------------------------------------------------- properties

  /** A result without a confidence score passes exactly when it reports no critical issue. */
  lemma MissingConfidencePasses(products: seq<Product>, normalize: seq<Product> -> CatalogOutcome)
    requires products != []
    requires normalize(Take(products, SentProducts)).CatalogReturned?
    requires normalize(Take(products, SentProducts)).result.confidence.None?
    ensures var r := CatalogAgent(products, normalize);
      r.schemaPassed <==> forall k :: 0 <= k < |r.issues| ==> !IsCriticalType(r.issues[k])
  {
  }

  /** Whenever the schema check fails for lack of input or a failed call, exactly one "error" issue is recorded. */
  lemma FallbacksRecordOneError(products: seq<Product>, normalize: seq<Product> -> CatalogOutcome)
    requires products == [] || normalize(Take(products, SentProducts)).CatalogFailed?
    ensures var r := CatalogAgent(products, normalize);
      && !r.schemaPassed
      && |r.issues| == 1 && r.issues[0].kind == Some("error")
      && r.normalized == products
  {
  }
}

=== FILE: common.dfy ===
/** Small value helpers shared by every module of the model. */
module Common {

  /** A value that may be absent; `None` is how a missing dictionary key reads. */
  datatype Option<+T> = None | Some(value: T) {

    /** The value, or `default` when absent (Python's `d.get(key, default)`). */
    function GetOr(default: T): T {
      match this
      case Some(v) => v
      case None => default
    }
  }

  /** The smaller of two reals. */
  function Min(a: real, b: real): (m: real)
    ensures m <= a && m <= b
    ensures m == a || m == b
  {
    if a <= b then a else b
  }

  /** The first `n` elements of `s`, or all of `s` when it is shorter (Python's `s[:n]`). */
  function Take<T>(s: seq<T>, n: nat): (r: seq<T>)
    ensures r <= s
    ensures |r| == if |s| < n then |s| else n
  {
    if |s| <= n then s else s[..n]
  }

  /** Concatenation is associative. */
  lemma ConcatAssociative<T>(x: seq<T>, y: seq<T>, z: seq<T>)
    ensures x + (y + z) == (x + y) + z
  {
  }
}

=== FILE: graph.dfy ===
/**
 * The workflow: two routing gates and the node topology, run as a walk over
 * an acyclic graph in which each node's partial update is merged into the
 * blackboard before the next node is chosen.
 *
 * coordinator -> support_agent -> catalog_agent -(safety gate)-> throttler | pricing_agent
 * pricing_agent -> validator -> resolver; throttler and resolver end the run.
 */
module Graph {
  import opened Common
  import opened Records
  import opened Blackboard
  import Pricing
  import Support
  import Catalog
  import Nodes

  datatype SafetyRoute = Unsafe | Safe

  /** Safety gate: unsafe exactly when the spike flag is set; a missing flag reads as safe. */
  function SafetyGate(s: State): (r: SafetyRoute)
    ensures r == Unsafe <==> s.complaintSpikeDetected == Some(true)
  {
    if s.complaintSpikeDetected.GetOr(false) then Unsafe else Safe
  }

  datatype SchemaRoute = Retry | Invalid | Valid

  const MaxRetries: int := 2

  /** Schema gate: a failed validation is retried twice, then invalid; a missing flag counts as passed, a missing count as 0. */
  function SchemaGate(s: State): (r: SchemaRoute)
    ensures r == Retry <==> s.schemaValidationPassed == Some(false) && s.retryCount.GetOr(0) < MaxRetries
    ensures r == Invalid <==> s.schemaValidationPassed == Some(false) && s.retryCount.GetOr(0) >= MaxRetries
    ensures r == Valid <==> s.schemaValidationPassed != Some(false)
  {
    var passed := s.schemaValidationPassed.GetOr(true);
    var retries := s.retryCount.GetOr(0);
    if !passed && retries < MaxRetries then Retry
    else if !passed then Invalid
    else Valid
  }

  datatype Node = Coordinator | SupportAgent | CatalogAgent | PricingAgent | Validator | Throttler | Resolver

  /**
   * The compiled workflow: the function registered under each node name,
   * and what the registered functions depend on besides the state (the
   * upload and sample data the coordinator may load, and the two inference
   * collaborators).
   */
  datatype Env = Env(uploaded: Option<Nodes.Ingested>, sample: Nodes.Ingested,
                     classify: seq<Message> -> Support.SupportOutcome,
                     normalize: seq<Product> -> Catalog.CatalogOutcome,
                     registry: (Node, State) -> State)

  /**
   * Every node is registered with the stage this model defines for it. The
   * validator's entry is left unconstrained: its definition is not part of
   * this model, so it stands for an arbitrary partial update of the state.
   */
  ghost predicate Registered(env: Env) {
    && (forall s :: env.registry(Coordinator, s) == Nodes.CoordinatorNode(s, env.uploaded, env.sample))
    && (forall s :: env.registry(SupportAgent, s) == Support.SupportNode(s, env.classify))
    && (forall s :: env.registry(CatalogAgent, s) == Catalog.CatalogNode(s, env.normalize))
    && (forall s :: env.registry(PricingAgent, s) == Pricing.PricingNode(s))
    && (forall s :: env.registry(Throttler, s) == Nodes.ThrottlerNode(s))
    && (forall s :: env.registry(Resolver, s) == Nodes.ResolverNode(s))
  }

  /** Distance to the end of the graph; every edge decreases it. */
  function Rank(n: Node): nat {
    match n
    case Coordinator => 6
    case SupportAgent => 5
    case CatalogAgent => 4
    case PricingAgent => 3
    case Validator => 2
    case Throttler => 1
    case Resolver => 1
  }

  /** The edges; the only conditional one leaves catalog_agent and consults the safety gate. */
  function Successor(n: Node, s: State): (next: Option<Node>)
    ensures next.Some? ==> Rank(next.value) < Rank(n)
    ensures next.None? <==> n == Throttler || n == Resolver
  {
    match n
    case Coordinator => Some(SupportAgent)
    case SupportAgent => Some(CatalogAgent)
    case CatalogAgent => if SafetyGate(s) == Unsafe then Some(Throttler) else Some(PricingAgent)
    case PricingAgent => Some(Validator)
    case Validator => Some(Resolver)
    case Throttler => None
    case Resolver => None
  }

  /** The nodes a run visits, in order, and the state it ends in. */
  datatype Trace = Trace(nodes: seq<Node>, final: State)

  /** Runs node `n` on `s`, merges its update, and continues along the edges until the end. */
  function RunFrom(n: Node, s: State, env: Env): (t: Trace)
    decreases Rank(n)
    ensures t.nodes != [] && t.nodes[0] == n
    ensures t.nodes[|t.nodes| - 1] == Throttler || t.nodes[|t.nodes| - 1] == Resolver
  {
    var s' := Merge(s, env.registry(n, s));
    match Successor(n, s')
    case None => Trace([n], s')
    case Some(m) =>
      var t := RunFrom(m, s', env);
      Trace([n] + t.nodes, t.final)
  }

  /** A run from the entry point. */
  function Run(input: State, env: Env): (t: Trace)
    ensures t.nodes != [] && t.nodes[0] == Coordinator
    ensures t.nodes[|t.nodes| - 1] == Throttler || t.nodes[|t.nodes| - 1] == Resolver
  {
    RunFrom(Coordinator, input, env)
  }

  // ------------------------------------------------------------ run facts

  /** The state the safety gate sees: after coordinator, support agent and catalog agent. */
  function GateState(input: State, env: Env): State {
    var s1 := Merge(input, env.registry(Coordinator, input));
    var s2 := Merge(s1, env.registry(SupportAgent, s1));
    Merge(s2, env.registry(CatalogAgent, s2))
  }

  /** The spike flag at the gate is the one the support agent derived: nothing after it writes that key. */
  lemma GateSeesSupportSpike(input: State, env: Env)
    requires Registered(env)
    ensures var s1 := Merge(input, env.registry(Coordinator, input));
      var out := Support.SupportAgent(s1.customerMessages.GetOr([]), env.classify);
      && GateState(input, env).complaintSpikeDetected == Some(out.spike)
      && (SafetyGate(GateState(input, env)) == Unsafe <==> out.spike)
  {
  }

  /** One step of a run that continues to `m`. */
  lemma UnfoldContinue(n: Node, s: State, env: Env, m: Node)
    requires Successor(n, Merge(s, env.registry(n, s))) == Some(m)
    ensures var t := RunFrom(m, Merge(s, env.registry(n, s)), env);
      RunFrom(n, s, env) == Trace([n] + t.nodes, t.final)
  {
  }

  /** The last step of a run. */
  lemma UnfoldEnd(n: Node, s: State, env: Env)
    requires n == Throttler || n == Resolver
    ensures RunFrom(n, s, env) == Trace([n], Merge(s, env.registry(n, s)))
  {
  }

  /** The first three nodes run unconditionally and leave the run at the gate state. */
  lemma RunPrefix(input: State, env: Env)
    ensures var g := GateState(input, env);
      var rest := RunFrom(Successor(CatalogAgent, g).value, g, env);
      Run(input, env) == Trace([Coordinator, SupportAgent, CatalogAgent] + rest.nodes, rest.final)
  {
    var s1 := Merge(input, env.registry(Coordinator, input));
    var s2 := Merge(s1, env.registry(SupportAgent, s1));
    var g := GateState(input, env);
    var next := Successor(CatalogAgent, g).value;
    var rest := RunFrom(next, g, env);
    UnfoldContinue(CatalogAgent, s2, env, next);
    UnfoldContinue(SupportAgent, s1, env, CatalogAgent);
    UnfoldContinue(Coordinator, input, env, SupportAgent);
    assert [Coordinator] + ([SupportAgent] + ([CatalogAgent] + rest.nodes))
        == [Coordinator, SupportAgent, CatalogAgent] + rest.nodes;
  }

  /** Without a spike, the run continues from the gate state with pricing. */
  lemma RunPrefixSafe(input: State, env: Env)
    requires SafetyGate(GateState(input, env)) == Safe
    ensures var rest := RunFrom(PricingAgent, GateState(input, env), env);
      Run(input, env) == Trace([Coordinator, SupportAgent, CatalogAgent] + rest.nodes, rest.final)
  {
    RunPrefix(input, env);
  }

  /** With a spike, the run continues from the gate state with the throttler. */
  lemma RunPrefixUnsafe(input: State, env: Env)
    requires SafetyGate(GateState(input, env)) == Unsafe
    ensures var rest := RunFrom(Throttler, GateState(input, env), env);
      Run(input, env) == Trace([Coordinator, SupportAgent, CatalogAgent] + rest.nodes, rest.final)
  {
    RunPrefix(input, env);
  }

  /** Up to the gate no proposal or flag is added, and the locks are empty. */
  lemma GateLists(input: State, env: Env)
    requires Registered(env)
    ensures var g := GateState(input, env);
      && g.pricingProposals.GetOr([]) == input.pricingProposals.GetOr([])
      && g.validationFlags.GetOr([]) == input.validationFlags.GetOr([])
      && g.merchantLocks == Some({})
  {
    var s1 := Merge(input, env.registry(Coordinator, input));
    var s2 := Merge(s1, env.registry(SupportAgent, s1));
    Nodes.CoordinatorKeepsLists(input, env.uploaded, env.sample);
    MergeAppendsLists(s1, env.registry(SupportAgent, s1));
    MergeAppendsLists(s2, env.registry(CatalogAgent, s2));
  }

  /** The throttler's update: a FROZEN report with no actions, throttle mode on, one audit entry, no list touched. */
  lemma ThrottledFinal(g: State, env: Env)
    requires Registered(env)
    ensures var f := Merge(g, env.registry(Throttler, g));
      && f.finalReport.Some? && f.finalReport.value.FrozenReport?
      && f.finalReport.value.status == Frozen
      && f.finalReport.value.actionsTaken == []
      && f.throttleModeActive == Some(true)
      && f.pricingProposals.GetOr([]) == g.pricingProposals.GetOr([])
      && f.validationFlags.GetOr([]) == g.validationFlags.GetOr([])
      && f.auditLog.GetOr([]) == g.auditLog.GetOr([]) + [ThrottlerActivated]
  {
    MergeAppendsLists(g, env.registry(Throttler, g));
  }

  /** With a spike the run is coordinator, support, catalog, throttler, and ends in the throttler's update. */
  lemma UnsafeTrace(input: State, env: Env)
    requires SafetyGate(GateState(input, env)) == Unsafe
    ensures var g := GateState(input, env);
      Run(input, env) == Trace([Coordinator, SupportAgent, CatalogAgent, Throttler], Merge(g, env.registry(Throttler, g)))
  {
    var g := GateState(input, env);
    RunPrefixUnsafe(input, env);
    UnfoldEnd(Throttler, g, env);
    assert [Coordinator, SupportAgent, CatalogAgent] + [Throttler] == [Coordinator, SupportAgent, CatalogAgent, Throttler];
  }

  /**
   * A spike freezes the run: coordinator, support, catalog, throttler and
   * nothing else; pricing, validation and resolution never run, no proposal
   * or flag is added, and the report is FROZEN.
   */
  lemma UnsafeRun(input: State, env: Env)
    requires Registered(env)
    requires SafetyGate(GateState(input, env)) == Unsafe
    ensures var t := Run(input, env);
      && t.nodes == [Coordinator, SupportAgent, CatalogAgent, Throttler]
      && t.final.finalReport.Some? && t.final.finalReport.value.FrozenReport?
      && t.final.finalReport.value.status == Frozen
      && t.final.finalReport.value.actionsTaken == []
      && t.final.throttleModeActive == Some(true)
      && t.final.pricingProposals.GetOr([]) == input.pricingProposals.GetOr([])
      && t.final.validationFlags.GetOr([]) == input.validationFlags.GetOr([])
      && t.final.auditLog.GetOr([]) == input.auditLog.GetOr([]) + [WorkflowStarted(input.merchantId.GetOr("unknown")), ThrottlerActivated]
  {
    var g := GateState(input, env);
    UnsafeTrace(input, env);
    GateLists(input, env);
    GateAudit(input, env);
    ThrottledFinal(g, env);
    assert input.auditLog.GetOr([]) + [WorkflowStarted(input.merchantId.GetOr("unknown"))] + [ThrottlerActivated]
        == input.auditLog.GetOr([]) + [WorkflowStarted(input.merchantId.GetOr("unknown")), ThrottlerActivated];
  }

  /** At the gate the audit log holds the input's entries followed by `workflow_started`. */
  lemma GateAudit(input: State, env: Env)
    requires Registered(env)
    ensures GateState(input, env).auditLog.GetOr([])
         == input.auditLog.GetOr([]) + [WorkflowStarted(input.merchantId.GetOr("unknown"))]
  {
    var s1 := Merge(input, env.registry(Coordinator, input));
    var s2 := Merge(s1, env.registry(SupportAgent, s1));
    MergeAppendsLists(input, env.registry(Coordinator, input));
    MergeAppendsLists(s1, env.registry(SupportAgent, s1));
    MergeAppendsLists(s2, env.registry(CatalogAgent, s2));
    assert s1.auditLog.GetOr([]) + [] == s1.auditLog.GetOr([]);
    assert s2.auditLog.GetOr([]) + [] == s2.auditLog.GetOr([]);
  }

  /** The state a safe run ends in, from the state at the gate: pricing, then the validator, then the resolver. */
  function SafeFinal(g: State, env: Env): State {
    var p := Merge(g, env.registry(PricingAgent, g));
    var v := Merge(p, env.registry(Validator, p));
    Merge(v, env.registry(Resolver, v))
  }

  /** After a safe gate the run is pricing, validator, resolver. */
  lemma SafeTail(g: State, env: Env)
    ensures RunFrom(PricingAgent, g, env) == Trace([PricingAgent, Validator, Resolver], SafeFinal(g, env))
  {
    var p := Merge(g, env.registry(PricingAgent, g));
    var v := Merge(p, env.registry(Validator, p));
    UnfoldEnd(Resolver, v, env);
    UnfoldContinue(Validator, p, env, Resolver);
    UnfoldContinue(PricingAgent, g, env, Validator);
  }

  /**
   * Without a spike the run is coordinator, support, catalog, pricing,
   * validator, resolver, and it ends in the resolver's update.
   */
  lemma SafeRun(input: State, env: Env)
    requires SafetyGate(GateState(input, env)) == Safe
    ensures var t := Run(input, env);
      && t.nodes == [Coordinator, SupportAgent, CatalogAgent, PricingAgent, Validator, Resolver]
      && t.final == SafeFinal(GateState(input, env), env)
  {
    var g := GateState(input, env);
    var rest := RunFrom(PricingAgent, g, env);
    assert [Coordinator, SupportAgent, CatalogAgent] + [PricingAgent, Validator, Resolver]
        == [Coordinator, SupportAgent, CatalogAgent, PricingAgent, Validator, Resolver];
    RunPrefixSafe(input, env);
    SafeTail(g, env);
    assert rest.nodes == [PricingAgent, Validator, Resolver];
  }

  /** The resolver's completed report is what a safe run leaves behind. */
  lemma SafeFinalReport(g: State, env: Env)
    requires Registered(env)
    ensures var f := SafeFinal(g, env);
      && f.finalReport.Some? && f.finalReport.value.CompletedReport?
      && f.finalReport.value.status == Completed
  {
  }

  /** The audit log after the gate gains whatever the validator logs, then `workflow_completed`. */
  lemma SafeFinalAudit(g: State, env: Env)
    requires Registered(env)
    ensures var log := SafeFinal(g, env).auditLog.GetOr([]);
      var p := Merge(g, env.registry(PricingAgent, g));
      && |log| > 0
      && log[..|log| - 1] == g.auditLog.GetOr([]) + env.registry(Validator, p).auditLog.GetOr([])
      && log[|log| - 1].WorkflowCompleted?
  {
    var p := Merge(g, env.registry(PricingAgent, g));
    var v := Merge(p, env.registry(Validator, p));
    var u := env.registry(Resolver, v);
    MergeAppendsLists(g, env.registry(PricingAgent, g));
    MergeAppendsLists(p, env.registry(Validator, p));
    MergeAppendsLists(v, u);
    assert g.auditLog.GetOr([]) + [] == g.auditLog.GetOr([]);
    var log := Merge(v, u).auditLog.GetOr([]);
    assert log == v.auditLog.GetOr([]) + u.auditLog.value;
    assert log[..|log| - 1] == v.auditLog.GetOr([]);
  }

  /** A safe run's audit log: the input's entries, `workflow_started`, the validator's entries, `workflow_completed`. */
  lemma SafeRunAudit(input: State, env: Env)
    requires Registered(env)
    requires SafetyGate(GateState(input, env)) == Safe
    ensures var g := GateState(input, env);
      var log := Run(input, env).final.auditLog.GetOr([]);
      var pre := input.auditLog.GetOr([]) + [WorkflowStarted(input.merchantId.GetOr("unknown"))];
      && |log| > |pre|
      && log[..|log| - 1] == pre + env.registry(Validator, Merge(g, env.registry(PricingAgent, g))).auditLog.GetOr([])
      && log[|log| - 1].WorkflowCompleted?
  {
    SafeRun(input, env);
    GateAudit(input, env);
    SafeFinalAudit(GateState(input, env), env);
  }

  /** The validator step never writes the merchant locks. */
  ghost predicate KeepsLocks(env: Env) {
    forall s :: env.registry(Validator, s).merchantLocks.None?
  }

  /** With the locks emptied before the gate and a validator that leaves them alone, nothing is LOCKED. */
  lemma SafeFinalNeverLocks(g: State, env: Env)
    requires Registered(env)
    requires g.merchantLocks == Some({})
    requires KeepsLocks(env)
    ensures var rep := SafeFinal(g, env).finalReport;
      && rep.Some? && rep.value.CompletedReport?
      && forall i :: 0 <= i < |rep.value.pricingActions| ==> rep.value.pricingActions[i].status != Locked
  {
    var p := Merge(g, env.registry(PricingAgent, g));
    var v := Merge(p, env.registry(Validator, p));
    assert env.registry(Validator, p).merchantLocks.None?;
    assert v.merchantLocks == Some({});
  }

  /**
   * A full run never produces a LOCKED action as long as the validator leaves
   * the locks alone: the coordinator replaces the locks with the empty map.
   */
  lemma SafeRunNeverLocks(input: State, env: Env)
    requires Registered(env)
    requires SafetyGate(GateState(input, env)) == Safe
    requires KeepsLocks(env)
    ensures var rep := Run(input, env).final.finalReport;
      && rep.Some? && rep.value.CompletedReport?
      && forall i :: 0 <= i < |rep.value.pricingActions| ==> rep.value.pricingActions[i].status != Locked
  {
    SafeRun(input, env);
    GateLists(input, env);
    SafeFinalNeverLocks(GateState(input, env), env);
  }

  /**
   * The resolver's cost-floor rule never fires on what pricing proposes: a
   * proposal already sits at or above cost * 1.05, which is at least the cost
   * when the cost is not negative, so no such action is ADJUSTED.
   */
  lemma PricedProposalsNeverAdjusted(products: seq<Product>, ctx: seq<PricingContext>, sentiment: real,
                                     resolve: Nodes.Context)
    requires forall k :: 0 <= k < |products| ==> Pricing.Cost(products[k]) >= 0.0
    ensures var actions := Nodes.Actions(Pricing.PriceAll(products, ctx, sentiment), resolve);
      forall i :: 0 <= i < |actions| ==> actions[i].status != Adjusted
  {
    var ps := Pricing.PriceAll(products, ctx, sentiment);
    forall i | 0 <= i < |ps|
      ensures Nodes.Decide(ps[i], resolve).action.status != Adjusted
    {
      Nodes.StatusCharacterisation(ps[i], resolve);
    }
  }

  /** Every node but the validator sets the retry count to 0 or leaves it alone. */
  lemma RetryCountOnlyReset(n: Node, s: State, env: Env)
    requires Registered(env)
    requires n != Validator
    ensures env.registry(n, s).retryCount.GetOr(0) == 0
  {
  }

  /** The only node whose successor depends on the state is catalog_agent, and the schema gate is never consulted. */
  lemma OnlySafetyGateBranches(n: Node, s1: State, s2: State)
    ensures n != CatalogAgent ==> Successor(n, s1) == Successor(n, s2)
    ensures SafetyGate(s1) == SafetyGate(s2) ==> Successor(n, s1) == Successor(n, s2)
  {
  }
}

=== FILE: nodes.dfy ===
/**
 * The orchestration stages: the coordinator's state reset, the throttler's
 * frozen report, and the conflict resolver that turns pricing proposals,
 * catalog issues, merchant locks and sentiment into final actions, warnings,
 * an alert level, a summary and recommendations.
 */
module Nodes {
  import opened Common
  import opened Records
  import opened Blackboard

  // ------------------------------------------------------------ coordinator

  /** Product, message and pricing-context lists as delivered by ingestion. */
  datatype Ingested = Ingested(products: seq<Product>, messages: seq<Message>, context: seq<PricingContext>)

  const MaxProducts: nat := 10
  const MaxMessages: nat := 20
  const MaxContext: nat := 5

  /** The keys the coordinator writes when it has loaded data: bounded inputs and emptied outputs. */
  function LoadedUpdate(d: Ingested): (u: State)
    ensures u.productData.Some? && u.productData.value <= d.products && |u.productData.value| <= MaxProducts
    ensures u.customerMessages.Some? && u.customerMessages.value <= d.messages && |u.customerMessages.value| <= MaxMessages
    ensures u.pricingContext.Some? && u.pricingContext.value <= d.context && |u.pricingContext.value| <= MaxContext
    ensures |d.products| <= MaxProducts ==> u.productData == Some(d.products)
    ensures |d.messages| <= MaxMessages ==> u.customerMessages == Some(d.messages)
    ensures |d.context| <= MaxContext ==> u.pricingContext == Some(d.context)
    ensures u.competitorData == Some([]) && u.catalogIssues == Some([]) && u.pricingProposals == Some([])
    ensures u.supportSummary == Some(EmptySummary) && u.finalReport == Some(NoReport)
    ensures u.merchantId.None? && u.auditLog.None? && u.merchantLocks.None? && u.retryCount.None?
  {
    Blank.(productData := Some(Take(d.products, MaxProducts)),
           customerMessages := Some(Take(d.messages, MaxMessages)),
           pricingContext := Some(Take(d.context, MaxContext)),
           competitorData := Some([]),
           catalogIssues := Some([]),
           pricingProposals := Some([]),
           supportSummary := Some(EmptySummary),
           finalReport := Some(NoReport))
  }

  /**
   * The coordinator's update. `uploaded` is the parsed upload, if any, and
   * `sample` what loading the local sample data yields; the sample is used
   * only when nothing was uploaded and the state has no product data.
   */
  function CoordinatorNode(s: State, uploaded: Option<Ingested>, sample: Ingested): (u: State)
    ensures u.retryCount == Some(0)
    ensures u.merchantLocks == Some({})
    ensures u.auditLog == Some([WorkflowStarted(s.merchantId.GetOr("unknown"))])
    ensures u.merchantId.None? && u.complaintSpikeDetected.None? && u.throttleModeActive.None?
    ensures u.normalizedCatalog.None? && u.validationFlags.None?
    ensures u.catalogIssues.GetOr([]) == [] && u.pricingProposals.GetOr([]) == []
    ensures |u.productData.GetOr([])| <= MaxProducts && |u.customerMessages.GetOr([])| <= MaxMessages
    ensures |u.pricingContext.GetOr([])| <= MaxContext
  {
    var updates :=
      if uploaded.Some? then LoadedUpdate(uploaded.value)
      else if s.productData.GetOr([]) == [] then LoadedUpdate(sample)
      else Blank;
    updates.(retryCount := Some(0), merchantLocks := Some({}),
             auditLog := Some([WorkflowStarted(s.merchantId.GetOr("unknown"))]))
  }

  /** The coordinator clears the locks and the retry count but, by the append policy, none of the lists. */
  lemma CoordinatorKeepsLists(s: State, uploaded: Option<Ingested>, sample: Ingested)
    ensures var m := Merge(s, CoordinatorNode(s, uploaded, sample));
      && m.catalogIssues.GetOr([]) == s.catalogIssues.GetOr([])
      && m.pricingProposals.GetOr([]) == s.pricingProposals.GetOr([])
      && m.normalizedCatalog.GetOr([]) == s.normalizedCatalog.GetOr([])
      && m.validationFlags.GetOr([]) == s.validationFlags.GetOr([])
      && m.merchantLocks == Some({})
      && m.retryCount == Some(0)
  {
    EmptyListsDoNotReset(s, CoordinatorNode(s, uploaded, sample));
  }

  // ------------------------------------------------------------ throttler

  /** The fixed recommendations of a frozen run. */
  const FrozenRecommendations: seq<Recommendation> :=
    [ReviewComplaints, InvestigateRootCause, PreparePublicResponse, HoldPricingChanges]

  /** The velocity and sentiment a support summary reports, 0 when it reports none. */
  function SpikeAlertOf(summary: SupportSummary): (a: AlertMessage)
    ensures summary.Analysis? ==> a.velocity == summary.velocity && a.sentiment == summary.sentiment
    ensures !summary.Analysis? ==> a.velocity == 0.0 && a.sentiment == 0.0
  {
    if summary.Analysis? then SpikeAlert(summary.velocity, summary.sentiment) else SpikeAlert(0.0, 0.0)
  }

  /** The throttler's update: throttle on, a frozen red report with no actions, one audit entry. */
  function ThrottlerNode(s: State): (u: State)
    ensures u.throttleModeActive == Some(true)
    ensures u.finalReport.Some? && u.finalReport.value.FrozenReport?
    ensures var rep := u.finalReport.value;
      && rep.status == Frozen && rep.alert == Red && rep.actionsTaken == []
      && rep.recommendations == FrozenRecommendations
      && rep.support == s.supportSummary.GetOr(EmptySummary)
      && rep.alertMessage == SpikeAlertOf(rep.support)
    ensures u.auditLog == Some([ThrottlerActivated])
    ensures u == Blank.(throttleModeActive := u.throttleModeActive, finalReport := u.finalReport, auditLog := u.auditLog)
  {
    var support := s.supportSummary.GetOr(EmptySummary);
    Blank.(throttleModeActive := Some(true),
           finalReport := Some(FrozenReport(Frozen, Red, SpikeAlertOf(support), support, [], FrozenRecommendations)),
           auditLog := Some([ThrottlerActivated]))
  }

  // ------------------------------------------------------------ resolver

  const SentimentBlockThreshold: real := -0.3

  /** An issue that blocks its product: type "critical" or severity "high". */
  predicate IsBlockingIssue(i: Issue) {
    i.kind == Some("critical") || i.severity == Some("high")
  }

  /** The product an issue refers to: a non-empty `product_id`, else `id`. */
  function IssueProduct(i: Issue): Option<string> {
    if i.productId.Some? && i.productId.value != "" then i.productId else i.id
  }

  /** Issue `i` puts product `pid` in the critical set. */
  predicate Blocks(i: Issue, pid: string) {
    IsBlockingIssue(i) && IssueProduct(i) == Some(pid) && pid != ""
  }

  /** The products that catalog issues mark as critically broken. */
  function CriticalIds(issues: seq<Issue>): (r: set<string>)
    ensures forall pid :: pid in r <==> exists k :: 0 <= k < |issues| && Blocks(issues[k], pid)
  {
    if issues == [] then {}
    else
      var i := issues[0];
      var rest := CriticalIds(issues[1..]);
      var here: set<string> := if IsBlockingIssue(i) && IssueProduct(i).Some? && IssueProduct(i).value != ""
                               then {IssueProduct(i).value} else {};
      assert forall pid, k :: 0 < k < |issues| && Blocks(issues[k], pid) ==> Blocks(issues[1..][k - 1], pid);
      here + rest
  }

  /** What the chain consults besides the proposal itself. */
  datatype Context = Context(locks: set<string>, critical: set<string>, sentiment: real)

  /** The action for one proposal and the warning recorded with it, if any. */
  datatype Decision = Decision(action: Action, warning: Option<Warning>)

  /** The chain as data: the rules in priority order. */
  datatype Rule = LockRule | CatalogRule | SentimentRule | CostFloorRule | ApproveRule

  const Priority: seq<Rule> := [LockRule, CatalogRule, SentimentRule, CostFloorRule, ApproveRule]

  /** Whether a rule applies to a proposal. */
  predicate Applies(r: Rule, p: Proposal, ctx: Context) {
    match r
    case LockRule => p.productId in ctx.locks
    case CatalogRule => p.productId in ctx.critical
    case SentimentRule => ctx.sentiment < SentimentBlockThreshold && p.proposedPrice > p.currentPrice
    case CostFloorRule => p.proposedPrice < p.cost
    case ApproveRule => true
  }

  /** What a rule decides when it applies. */
  function Outcome(r: Rule, p: Proposal, ctx: Context): Decision {
    match r
    case LockRule => Decision(Action(p, p.currentPrice, Locked, Some(MerchantOverride)), None)
    case CatalogRule => Decision(Action(p, p.currentPrice, Blocked, Some(CatalogDataError)), Some(CatalogCorruption(p.productId)))
    case SentimentRule =>
      Decision(Action(p, p.currentPrice, Blocked, Some(NegativeSentiment(ctx.sentiment))), Some(SentimentBlock(p.productId)))
    case CostFloorRule =>
      Decision(Action(p, p.cost * FloorFactor, Adjusted, Some(CostFloorRaise(p.cost * FloorFactor))),
               Some(CostFloorAdjustment(p.productId)))
    case ApproveRule => Decision(Action(p, p.proposedPrice, Approved, None), None)
  }

  /** The resolver's decision chain for one proposal; the first rule that applies decides. */
  function Decide(p: Proposal, ctx: Context): (d: Decision)
    ensures d.action.proposal == p
    ensures d.warning.Some? <==> d.action.status == Blocked || d.action.status == Adjusted
    ensures d.warning ==
      if d.action.status == Adjusted then Some(CostFloorAdjustment(p.productId))
      else if d.action.status == Blocked && p.productId in ctx.critical then Some(CatalogCorruption(p.productId))
      else if d.action.status == Blocked then Some(SentimentBlock(p.productId))
      else None
    ensures d.action.status == Locked <==> p.productId in ctx.locks
    ensures d.action.status == Locked || d.action.status == Blocked ==> d.action.finalPrice == p.currentPrice
    ensures d.action.status == Approved ==> d.action.finalPrice == p.proposedPrice && d.action.note.None?
    ensures p.cost >= 0.0 && d.action.status != Locked && d.action.status != Blocked ==> d.action.finalPrice >= p.cost
  {
    if Applies(LockRule, p, ctx) then Outcome(LockRule, p, ctx)
    else if Applies(CatalogRule, p, ctx) then Outcome(CatalogRule, p, ctx)
    else if Applies(SentimentRule, p, ctx) then Outcome(SentimentRule, p, ctx)
    else if Applies(CostFloorRule, p, ctx) then Outcome(CostFloorRule, p, ctx)
    else Outcome(ApproveRule, p, ctx)
  }

  /** Generic first-match evaluation of an ordered rule list. */
  function FirstMatch(rules: seq<Rule>, p: Proposal, ctx: Context): (d: Option<Decision>)
    ensures d.Some? <==> exists k :: 0 <= k < |rules| && Applies(rules[k], p, ctx)
  {
    if rules == [] then None
    else if Applies(rules[0], p, ctx) then Some(Outcome(rules[0], p, ctx))
    else
      var d := FirstMatch(rules[1..], p, ctx);
      assert forall k :: 0 < k < |rules| ==> rules[k] == rules[1..][k - 1];
      d
  }

  /** First match wins: the decision is the outcome of the earliest applicable rule. */
  lemma {:induction false} FirstMatchWins(rules: seq<Rule>, p: Proposal, ctx: Context, k: nat)
    requires k < |rules| && Applies(rules[k], p, ctx)
    requires forall j :: 0 <= j < k ==> !Applies(rules[j], p, ctx)
    ensures FirstMatch(rules, p, ctx) == Some(Outcome(rules[k], p, ctx))
  {
    if k > 0 {
      assert !Applies(rules[0], p, ctx);
      FirstMatchWins(rules[1..], p, ctx, k - 1);
    }
  }

  /** The resolver's chain is first-match evaluation of the rules in priority order. */
  lemma DecideIsPriorityOrder(p: Proposal, ctx: Context)
    ensures FirstMatch(Priority, p, ctx) == Some(Decide(p, ctx))
  {
    if Applies(LockRule, p, ctx) { FirstMatchWins(Priority, p, ctx, 0); }
    else if Applies(CatalogRule, p, ctx) { FirstMatchWins(Priority, p, ctx, 1); }
    else if Applies(SentimentRule, p, ctx) { FirstMatchWins(Priority, p, ctx, 2); }
    else if Applies(CostFloorRule, p, ctx) { FirstMatchWins(Priority, p, ctx, 3); }
    else { FirstMatchWins(Priority, p, ctx, 4); }
  }

  /** Each status arises exactly under its rule and no earlier one. */
  lemma StatusCharacterisation(p: Proposal, ctx: Context)
    ensures var st := Decide(p, ctx).action.status;
      var locked := p.productId in ctx.locks;
      var blocked := p.productId in ctx.critical
                     || (ctx.sentiment < SentimentBlockThreshold && p.proposedPrice > p.currentPrice);
      && (st == Blocked <==> !locked && blocked)
      && (st == Adjusted <==> !locked && !blocked && p.proposedPrice < p.cost)
      && (st == Approved <==> !locked && !blocked && p.proposedPrice >= p.cost)
  {
  }

  /** One action per proposal, in order. */
  function Actions(ps: seq<Proposal>, ctx: Context): (r: seq<Action>)
    ensures |r| == |ps|
    ensures forall i :: 0 <= i < |ps| ==> r[i] == Decide(ps[i], ctx).action
  {
    if ps == [] then [] else [Decide(ps[0], ctx).action] + Actions(ps[1..], ctx)
  }

  /** Number of actions with the given status. */
  function CountStatus(actions: seq<Action>, st: ActionStatus): (n: nat)
    ensures n <= |actions|
    ensures n == 0 <==> forall k :: 0 <= k < |actions| ==> actions[k].status != st
    ensures n == |actions| <==> forall k :: 0 <= k < |actions| ==> actions[k].status == st
  {
    if actions == [] then 0
    else (if actions[0].status == st then 1 else 0) + CountStatus(actions[1..], st)
  }

  /**
   * Counting distributes over concatenation; with the contract above (which
   * fixes the count of a one-element list) this determines every count.
   */
  lemma {:induction false} CountStatusAppend(a: seq<Action>, b: seq<Action>, st: ActionStatus)
    ensures CountStatus(a + b, st) == CountStatus(a, st) + CountStatus(b, st)
  {
    if a == [] {
      assert a + b == b;
    } else {
      assert (a + b)[1..] == a[1..] + b;
      CountStatusAppend(a[1..], b, st);
    }
  }

  /** The warnings recorded while walking the proposals, in order. */
  function Warnings(ps: seq<Proposal>, ctx: Context): (w: seq<Warning>)
    ensures |w| == CountStatus(Actions(ps, ctx), Blocked) + CountStatus(Actions(ps, ctx), Adjusted)
    ensures forall x :: x in w <==> exists k :: 0 <= k < |ps| && Decide(ps[k], ctx).warning == Some(x)
  {
    if ps == [] then []
    else
      var d := Decide(ps[0], ctx);
      var rest := Warnings(ps[1..], ctx);
      assert Actions(ps, ctx)[1..] == Actions(ps[1..], ctx);
      var head := WarningOf(d);
      assert forall k :: 0 <= k < |ps| - 1 ==> ps[1..][k] == ps[k + 1];
      assert forall x :: x in head <==> d.warning == Some(x);
      head + rest
  }

  /** The warning one decision contributes. */
  function WarningOf(d: Decision): seq<Warning> {
    if d.warning.Some? then [d.warning.value] else []
  }

  /** The warnings of a non-empty list: the first proposal's, then the rest's. */
  lemma WarningsCons(p: Proposal, ps: seq<Proposal>, ctx: Context)
    ensures Warnings([p] + ps, ctx) == WarningOf(Decide(p, ctx)) + Warnings(ps, ctx)
  {
    assert ([p] + ps)[0] == p && ([p] + ps)[1..] == ps;
  }

  /** Warnings are recorded proposal by proposal, so they distribute over concatenation. */
  lemma {:induction false} WarningsAppend(a: seq<Proposal>, b: seq<Proposal>, ctx: Context)
    ensures Warnings(a + b, ctx) == Warnings(a, ctx) + Warnings(b, ctx)
  {
    if a == [] {
      assert a + b == b;
    } else {
      assert a == [a[0]] + a[1..] && a + b == [a[0]] + (a[1..] + b);
      WarningsCons(a[0], a[1..] + b, ctx);
      WarningsCons(a[0], a[1..], ctx);
      WarningsAppend(a[1..], b, ctx);
      ConcatAssociative(WarningOf(Decide(a[0], ctx)), Warnings(a[1..], ctx), Warnings(b, ctx));
    }
  }

  /** Every action falls into exactly one of the four statuses. */
  lemma {:induction false} StatusesPartition(actions: seq<Action>)
    ensures CountStatus(actions, Approved) + CountStatus(actions, Blocked)
            + CountStatus(actions, Locked) + CountStatus(actions, Adjusted) == |actions|
  {
    if actions != [] {
      StatusesPartition(actions[1..]);
    }
  }

  /** Red on a catalog issue of type "critical", else yellow on any warning, else green. */
  function AlertLevelOf(issues: seq<Issue>, warnings: seq<Warning>): (a: AlertLevel)
    ensures a == Red <==> exists k :: 0 <= k < |issues| && IsCriticalType(issues[k])
    ensures a == Yellow <==> (forall k :: 0 <= k < |issues| ==> !IsCriticalType(issues[k])) && warnings != []
  {
    if CriticalTypeCount(issues) > 0 then Red else if warnings != [] then Yellow else Green
  }

  /** Position of a recommendation in the fixed order. */
  function RecommendationRank(r: Recommendation): nat {
    match r
    case AddressNegativeSentiment => 0
    case ReviewCatalogIssues(_) => 1
    case ManualAdjustments(_) => 2
    case ReadyToApply(_) => 3
    case _ => 4
  }

  /** The resolver's recommendations from sentiment, catalog issues, warnings and approvals. */
  function Recommendations(sentiment: real, issueCount: nat, warningCount: nat, approved: nat): (r: seq<Recommendation>)
    ensures r != []
    ensures forall i, j :: 0 <= i < j < |r| ==> RecommendationRank(r[i]) < RecommendationRank(r[j])
    ensures AddressNegativeSentiment in r <==> sentiment < SentimentBlockThreshold
    ensures ReviewCatalogIssues(issueCount) in r <==> issueCount > 0
    ensures ManualAdjustments(warningCount) in r <==> warningCount > 0
    ensures ReadyToApply(approved) in r <==> approved > 0
    ensures AllSystemsNormal in r <==> r == [AllSystemsNormal]
    ensures AllSystemsNormal in r <==>
      sentiment >= SentimentBlockThreshold && issueCount == 0 && warningCount == 0 && approved == 0
  {
    var a: seq<Recommendation> := if sentiment < SentimentBlockThreshold then [AddressNegativeSentiment] else [];
    var b: seq<Recommendation> := if issueCount > 0 then [ReviewCatalogIssues(issueCount)] else [];
    var c: seq<Recommendation> := if warningCount > 0 then [ManualAdjustments(warningCount)] else [];
    var d: seq<Recommendation> := if approved > 0 then [ReadyToApply(approved)] else [];
    var fired := a + b + c + d;
    assert forall x :: x in fired <==> x in a || x in b || x in c || x in d;
    if fired == [] then [AllSystemsNormal] else fired
  }

  /** Nothing but the five recommendations the resolver knows ever appears, each with the count it was given. */
  lemma RecommendationsAreTheFive(sentiment: real, issueCount: nat, warningCount: nat, approved: nat)
    ensures forall x :: x in Recommendations(sentiment, issueCount, warningCount, approved) ==>
      x in {AddressNegativeSentiment, ReviewCatalogIssues(issueCount), ManualAdjustments(warningCount),
            ReadyToApply(approved), AllSystemsNormal}
  {
  }

  /** The resolver's update: a completed report and one audit entry, nothing else. */
  function ResolverNode(s: State): (u: State)
    ensures u == Blank.(finalReport := u.finalReport, auditLog := u.auditLog)
    ensures u.finalReport.Some? && u.finalReport.value.CompletedReport?
    ensures var proposals := s.pricingProposals.GetOr([]);
      var rep := u.finalReport.value;
      && rep.status == Completed
      && |rep.pricingActions| == |proposals|
      && (forall i :: 0 <= i < |proposals| ==> rep.pricingActions[i].proposal == proposals[i])
      && rep.summary.totalProducts == |proposals|
      && rep.summary.approvedChanges + rep.summary.blockedChanges + rep.summary.lockedProducts <= |proposals|
      && rep.catalogIssues == s.catalogIssues.GetOr([])
      && rep.support == s.supportSummary.GetOr(EmptySummary)
      && u.auditLog == Some([WorkflowCompleted(rep.alert, |proposals|)])
    ensures var proposals := s.pricingProposals.GetOr([]);
      var issues := s.catalogIssues.GetOr([]);
      var sentiment := s.sentimentScore.GetOr(0.0);
      var ctx := Context(s.merchantLocks.GetOr({}), CriticalIds(issues), sentiment);
      var rep := u.finalReport.value;
      && rep.pricingActions == Actions(proposals, ctx)
      && rep.warnings == Warnings(proposals, ctx)
      && rep.alert == AlertLevelOf(issues, rep.warnings)
      && rep.summary == Summary(|proposals|, CountStatus(rep.pricingActions, Approved),
                                CountStatus(rep.pricingActions, Blocked), CountStatus(rep.pricingActions, Locked))
      && rep.recommendations == Recommendations(sentiment, |issues|, |rep.warnings|,
                                                CountStatus(rep.pricingActions, Approved))
  {
    var proposals := s.pricingProposals.GetOr([]);
    var issues := s.catalogIssues.GetOr([]);
    var sentiment := s.sentimentScore.GetOr(0.0);
    var ctx := Context(s.merchantLocks.GetOr({}), CriticalIds(issues), sentiment);
    var actions := Actions(proposals, ctx);
    var warnings := Warnings(proposals, ctx);
    var alert := AlertLevelOf(issues, warnings);
    var approved := CountStatus(actions, Approved);
    StatusesPartition(actions);
    var summary := Summary(|proposals|, approved, CountStatus(actions, Blocked), CountStatus(actions, Locked));
    var report := CompletedReport(Completed, alert, summary, issues, s.supportSummary.GetOr(EmptySummary),
                                  actions, warnings, Recommendations(sentiment, |issues|, |warnings|, approved));
    Blank.(finalReport := Some(report), auditLog := Some([WorkflowCompleted(alert, |actions|)]))
  }

  // ------------------------------------------------------------ properties

  /** The summary's three counts fall short of the total by exactly the number of ADJUSTED actions. */
  lemma SummaryMissesOnlyAdjusted(s: State)
    ensures var rep := ResolverNode(s).finalReport.value;
      rep.summary.approvedChanges + rep.summary.blockedChanges + rep.summary.lockedProducts
        + CountStatus(rep.pricingActions, Adjusted) == rep.summary.totalProducts
  {
    StatusesPartition(ResolverNode(s).finalReport.value.pricingActions);
  }

  /** The report's warnings are one per BLOCKED or ADJUSTED action, and its alert follows them. */
  lemma ReportWarningsAndAlert(s: State)
    ensures var rep := ResolverNode(s).finalReport.value;
      var issues := s.catalogIssues.GetOr([]);
      && |rep.warnings| == CountStatus(rep.pricingActions, Blocked) + CountStatus(rep.pricingActions, Adjusted)
      && (rep.alert == Red <==> exists k :: 0 <= k < |issues| && IsCriticalType(issues[k]))
      && (rep.alert == Green ==> CountStatus(rep.pricingActions, Blocked) == 0
                                 && CountStatus(rep.pricingActions, Adjusted) == 0)
  {
  }

  /** With no locks in the state, no action is LOCKED. */
  lemma {:induction false} NoLocksNoLocked(ps: seq<Proposal>, ctx: Context)
    requires ctx.locks == {}
    ensures CountStatus(Actions(ps, ctx), Locked) == 0
  {
    if ps != [] {
      NoLocksNoLocked(ps[1..], ctx);
      assert Actions(ps, ctx)[1..] == Actions(ps[1..], ctx);
    }
  }

  /**
   * A high-severity issue whose type is not "critical" blocks its product
   * but raises the alert only to yellow.
   */
  lemma SeverityHighAloneIsYellow(p: Proposal)
    requires p.productId != ""
    ensures var issue := Issue(Some("warning"), Some(p.productId), None, Some("high"), None);
      var s := Blank.(pricingProposals := Some([p]), catalogIssues := Some([issue]));
      var rep := ResolverNode(s).finalReport.value;
      && rep.pricingActions[0].status == Blocked
      && rep.alert == Yellow
  {
    var issue := Issue(Some("warning"), Some(p.productId), None, Some("high"), None);
    assert Blocks([issue][0], p.productId);
  }
}

=== FILE: pricing_agent.dfy ===
/**
 * The rule-based pricing engine: one proposal per product, computed by a
 * competitor-undercut rule, a sentiment rule, a +10% margin rule and a hard
 * cost floor, in that order, with the provenance of each step recorded.
 */
module Pricing {
  import opened Common
  import opened Records
  import opened Blackboard

  const UndercutShare: real := 0.95
  const UndercutGap: real := 5.0
  const MarginFactor: real := 1.10
  const DefaultCostShare: real := 0.5

  /** The product's id, "unknown" when missing. */
  function ProductId(p: Product): string { p.id.GetOr("unknown") }

  /** The product's current price, 0 when missing. */
  function CurrentPrice(p: Product): real { p.price.GetOr(0.0) }

  /** The product's cost, half the current price when missing. */
  function Cost(p: Product): real { p.cost.GetOr(CurrentPrice(p) * DefaultCostShare) }

  /** Index `i` holds the first context entry for product `pid`. */
  ghost predicate FirstEntryFor(ctx: seq<PricingContext>, pid: string, i: int) {
    && 0 <= i < |ctx|
    && ctx[i].productId == Some(pid)
    && forall j :: 0 <= j < i ==> ctx[j].productId != Some(pid)
  }

  /**
   * The competitor price of the first context entry for `pid` (0 when that
   * entry has no price), or 0 when there is none. A missing competitor and a
   * competitor price of 0 are both falsy in the source and are treated alike
   * by every later rule, so 0 is how "no competitor" reads here.
   */
  function CompetitorPrice(ctx: seq<PricingContext>, pid: string): (c: real)
    ensures (forall i :: 0 <= i < |ctx| ==> ctx[i].productId != Some(pid)) ==> c == 0.0
    ensures forall i :: FirstEntryFor(ctx, pid, i) ==> c == ctx[i].competitorPrice.GetOr(0.0)
  {
    if ctx == [] then 0.0
    else if ctx[0].productId == Some(pid) then ctx[0].competitorPrice.GetOr(0.0)
    else
      var c := CompetitorPrice(ctx[1..], pid);
      assert forall i :: FirstEntryFor(ctx, pid, i) ==> i > 0 && FirstEntryFor(ctx[1..], pid, i - 1);
      c
  }

  /** A price under construction, with the reasoning and signals recorded so far. */
  datatype Plan = Plan(price: real, reasoning: seq<Reason>, signals: seq<Signal>)

  /** Competitor rule: a competitor more than 5% below the current price is matched at +5, never above current. */
  function CompetitorStep(current: real, competitor: real): (pl: Plan)
    ensures pl.price <= current
    ensures pl.signals == if competitor == 0.0 then [] else [CompetitorPriceSignal(competitor)]
    ensures pl.reasoning == if competitor != 0.0 && competitor < current * UndercutShare then [MatchCompetitor] else []
    ensures pl.reasoning == [] ==> pl.price == current
    ensures pl.reasoning != [] ==> pl.price == Min(current, competitor + UndercutGap)
  {
    if competitor == 0.0 then Plan(current, [], [])
    else if competitor < current * UndercutShare then
      Plan(Min(current, competitor + UndercutGap), [MatchCompetitor], [CompetitorPriceSignal(competitor)])
    else Plan(current, [], [CompetitorPriceSignal(competitor)])
  }

  /** Sentiment rule: negative sentiment clamps an increase; otherwise +10% unless a cheaper competitor exists. */
  function SentimentStep(pl: Plan, current: real, competitor: real, sentiment: real): (r: Plan)
    ensures r.signals == pl.signals + [SentimentSignal(sentiment)]
    ensures pl.reasoning <= r.reasoning
    ensures sentiment < 0.0 ==> r.price == Min(pl.price, current)
    ensures sentiment < 0.0 ==>
      r.reasoning == pl.reasoning + (if pl.price > current then [NegativeSentimentBlock] else [])
    ensures sentiment >= 0.0 && (competitor == 0.0 || competitor > current) ==>
      r.reasoning == pl.reasoning + [MarginAdjustment]
    ensures sentiment >= 0.0 && (competitor == 0.0 || competitor > current) ==>
      r.price == Min(pl.price, current) * MarginFactor
    ensures sentiment >= 0.0 && competitor != 0.0 && competitor <= current ==> r == pl.(signals := r.signals)
  {
    var signals := pl.signals + [SentimentSignal(sentiment)];
    if sentiment < 0.0 then
      if pl.price > current then Plan(current, pl.reasoning + [NegativeSentimentBlock], signals)
      else Plan(pl.price, pl.reasoning, signals)
    else if competitor == 0.0 || competitor > current then
      Plan(Min(pl.price * MarginFactor, current * MarginFactor), pl.reasoning + [MarginAdjustment], signals)
    else Plan(pl.price, pl.reasoning, signals)
  }

  /** The price after the competitor and sentiment rules, before the cost floor. */
  function PreFloor(current: real, competitor: real, sentiment: real): Plan {
    SentimentStep(CompetitorStep(current, competitor), current, competitor, sentiment)
  }

  /** Cost floor: a price below cost * 1.05 is raised to it, and the floor is recorded. */
  function FloorStep(pl: Plan, cost: real): (r: Plan)
    ensures r.price >= cost * FloorFactor && r.price >= pl.price
    ensures pl.price >= cost * FloorFactor ==> r == pl
    ensures pl.price < cost * FloorFactor ==>
      && r.price == cost * FloorFactor
      && r.reasoning == pl.reasoning + [RaisedToCostFloor(cost * FloorFactor)]
      && r.signals == pl.signals + [CostFloorSignal(cost * FloorFactor)]
  {
    var floor := cost * FloorFactor;
    if pl.price < floor then
      Plan(floor, pl.reasoning + [RaisedToCostFloor(floor)], pl.signals + [CostFloorSignal(floor)])
    else pl
  }

  /** The full rule sequence for one product. */
  function PlanFor(current: real, cost: real, competitor: real, sentiment: real): (pl: Plan)
    ensures pl.price >= cost * FloorFactor
    ensures var pre := PreFloor(current, competitor, sentiment);
      && pl.price >= pre.price
      && (pl.price == pre.price || pl.price == cost * FloorFactor)
      && pre.signals <= pl.signals && pre.reasoning <= pl.reasoning
  {
    FloorStep(PreFloor(current, competitor, sentiment), cost)
  }

  /** Status of a proposed price relative to the current one. */
  function StatusOf(proposed: real, current: real): (st: ProposalStatus)
    ensures st == Hold <==> proposed == current
    ensures st == Increase <==> proposed > current
    ensures st == Decrease <==> proposed < current
  {
    if proposed == current then Hold
    else if proposed > current then Increase
    else Decrease
  }

  /** The proposal for one product. */
  function PriceProduct(p: Product, ctx: seq<PricingContext>, sentiment: real): (r: Proposal)
    ensures r.productId == ProductId(p) && r.productName == p.name.GetOr("Unknown")
    ensures r.currentPrice == CurrentPrice(p) && r.cost == Cost(p)
    ensures r.proposedPrice >= r.cost * FloorFactor
    ensures r.status == StatusOf(r.proposedPrice, r.currentPrice)
    ensures r.reasoning != []
    ensures sentiment < 0.0 && r.proposedPrice > r.currentPrice ==> r.proposedPrice == r.cost * FloorFactor
    ensures var pl := PlanFor(CurrentPrice(p), Cost(p), CompetitorPrice(ctx, ProductId(p)), sentiment);
      && r.proposedPrice == pl.price
      && r.signals == pl.signals
      && r.reasoning == (if pl.reasoning == [] && r.status == Hold then [NoChanges] else pl.reasoning)
  {
    var current := CurrentPrice(p);
    var cost := Cost(p);
    var pl := PlanFor(current, cost, CompetitorPrice(ctx, ProductId(p)), sentiment);
    var status := StatusOf(pl.price, current);
    var reasoning := if status == Hold && pl.reasoning == [] then [NoChanges] else pl.reasoning;
    Proposal(ProductId(p), p.name.GetOr("Unknown"), current, pl.price, status, reasoning, pl.signals, cost)
  }

  /** One proposal per product, in catalog order. */
  function PriceAll(products: seq<Product>, ctx: seq<PricingContext>, sentiment: real): (r: seq<Proposal>)
    ensures |r| == |products|
    ensures forall i :: 0 <= i < |products| ==> r[i] == PriceProduct(products[i], ctx, sentiment)
  {
    if products == [] then []
    else [PriceProduct(products[0], ctx, sentiment)] + PriceAll(products[1..], ctx, sentiment)
  }

  /**
   * The pricing stage: prices the normalised catalog when that key is present
   * (the raw product data otherwise) with the pricing context and the
   * sentiment score, and writes only `pricing_proposals`.
   */
  function PricingNode(s: State): (u: State)
    ensures u == Blank.(pricingProposals := u.pricingProposals)
    ensures u.pricingProposals.Some?
    ensures |u.pricingProposals.value| == |s.normalizedCatalog.GetOr(s.productData.GetOr([]))|
    ensures u.pricingProposals == Some(PriceAll(s.normalizedCatalog.GetOr(s.productData.GetOr([])),
                                                s.pricingContext.GetOr([]), s.sentimentScore.GetOr(0.0)))
  {
    var products := s.normalizedCatalog.GetOr(s.productData.GetOr([]));
    Blank.(pricingProposals := Some(PriceAll(products, s.pricingContext.GetOr([]), s.sentimentScore.GetOr(0.0))))
  }

  // ---------------------------------------------------------------- properties

  /** Without a competitor (missing or 0) there is no competitor signal and no undercut. */
  lemma NoCompetitorNoSignal(current: real, cost: real, sentiment: real)
    ensures var pl := PlanFor(current, cost, 0.0, sentiment);
      && (forall k :: 0 <= k < |pl.signals| ==> !pl.signals[k].CompetitorPriceSignal?)
      && MatchCompetitor !in pl.reasoning
  {
  }

  /** A competitor strictly between 0 and 95% of the current price sets the pre-floor price to min(current, c + 5), with no margin. */
  lemma UndercutRule(current: real, competitor: real, sentiment: real)
    requires 0.0 < competitor < current * UndercutShare
    ensures var pl := PreFloor(current, competitor, sentiment);
      && pl.price == Min(current, competitor + UndercutGap)
      && MarginAdjustment !in pl.reasoning
  {
  }

  /** With non-negative sentiment and no competitor or a dearer one, the pre-floor price is exactly current * 1.10. */
  lemma MarginRule(current: real, competitor: real, sentiment: real)
    requires sentiment >= 0.0
    requires competitor == 0.0 || competitor > current
    ensures PreFloor(current, competitor, sentiment).price == current * MarginFactor
  {
  }

  /**
   * The negative-sentiment clamp never changes anything: the competitor rule
   * never proposes more than the current price, so under negative sentiment
   * the pre-floor price is at most the current price and the clamp's
   * reasoning is never recorded.
   */
  lemma NegativeSentimentClampIsInert(current: real, competitor: real, sentiment: real)
    requires sentiment < 0.0
    ensures var pl := PreFloor(current, competitor, sentiment);
      && pl.price == CompetitorStep(current, competitor).price
      && pl.price <= current
      && NegativeSentimentBlock !in pl.reasoning
  {
  }

  /** The cost floor always holds, and its signal is recorded exactly when the floor raised the price. */
  lemma FloorRule(current: real, cost: real, competitor: real, sentiment: real)
    ensures var pre := PreFloor(current, competitor, sentiment);
      var pl := PlanFor(current, cost, competitor, sentiment);
      && pl.price >= cost * FloorFactor
      && pl.price >= pre.price
      && (CostFloorSignal(cost * FloorFactor) in pl.signals <==> pre.price < cost * FloorFactor)
      && (pre.price < cost * FloorFactor ==> pl.price == cost * FloorFactor)
  {
    var pre := PreFloor(current, competitor, sentiment);
    assert forall k :: 0 <= k < |pre.signals| ==> !pre.signals[k].CostFloorSignal?;
  }

  /** Under negative sentiment the price rises above the current one only when the cost floor raised it. */
  lemma NegativeSentimentNeverIncreasesButForFloor(current: real, cost: real, competitor: real, sentiment: real)
    requires sentiment < 0.0
    ensures var pre := PreFloor(current, competitor, sentiment);
      var pl := PlanFor(current, cost, competitor, sentiment);
      pl.price > current ==> pre.price < cost * FloorFactor && pl.price == cost * FloorFactor
  {
    NegativeSentimentClampIsInert(current, competitor, sentiment);
  }

  /** Signals come in a fixed order: optional competitor, exactly one sentiment entry, optional cost floor. */
  lemma SignalOrder(current: real, cost: real, competitor: real, sentiment: real)
    ensures var pl := PlanFor(current, cost, competitor, sentiment);
      var head := if competitor == 0.0 then [] else [CompetitorPriceSignal(competitor)];
      var tail := if PreFloor(current, competitor, sentiment).price < cost * FloorFactor
                  then [CostFloorSignal(cost * FloorFactor)] else [];
      pl.signals == head + [SentimentSignal(sentiment)] + tail
  {
  }

  /** A HOLD proposal with nothing else recorded explains itself with "no changes". */
  lemma HoldReasoning(p: Product, ctx: seq<PricingContext>, sentiment: real)
    ensures var r := PriceProduct(p, ctx, sentiment);
      (NoChanges in r.reasoning <==> r.reasoning == [NoChanges])
      && (r.status == Hold <==> r.proposedPrice == r.currentPrice)
  {
    var r := PriceProduct(p, ctx, sentiment);
    var pl := PlanFor(CurrentPrice(p), Cost(p), CompetitorPrice(ctx, ProductId(p)), sentiment);
    assert NoChanges !in pl.reasoning;
  }

  /** Worked example: price 100, cost 60, competitor 50, sentiment 0.2 gives a floor-clamped 63 and a DECREASE. */
  lemma FloorOverridesUndercutExample()
    ensures var r := PriceProduct(Product(Some("p"), Some("n"), Some(100.0), Some(60.0)),
                                  [PricingContext(Some("p"), Some(50.0))], 0.2);
      && r.proposedPrice == 63.0
      && r.status == Decrease
      && r.signals == [CompetitorPriceSignal(50.0), SentimentSignal(0.2), CostFloorSignal(63.0)]
      && r.reasoning == [MatchCompetitor, RaisedToCostFloor(63.0)]
  {
  }
}

=== FILE: records.dfy ===
/**
 * The entities that travel through the pipeline. Every record the source
 * keeps as a dictionary becomes a datatype here; keys that the source reads
 * with a default are `Option`s, and the formatted strings the source builds
 * (signals, reasoning, notes, warnings, recommendations) are typed
 * constructors carrying the numbers the text would embed.
 */
module Records {
  import opened Common

  /** The cost floor both pricing and the resolver enforce: cost plus a 5% margin. */
  const FloorFactor: real := 1.05

  /** A catalog product; any attribute may be missing. */
  datatype Product = Product(id: Option<string>, name: Option<string>, price: Option<real>, cost: Option<real>)

  /** One row of pricing context: a competitor price for a product. */
  datatype PricingContext = PricingContext(productId: Option<string>, competitorPrice: Option<real>)

  /** A customer message; the pipeline only forwards it to the classifier. */
  datatype Message = Message(text: string)

  /** A row of competitor data; the pipeline only ever resets this list. */
  datatype CompetitorRecord = CompetitorRecord(productId: string)

  /** A catalog issue as reported by the normalisation collaborator. */
  datatype Issue = Issue(kind: Option<string>, productId: Option<string>, id: Option<string>,
                         severity: Option<string>, message: Option<string>)

  /** The issue the catalog agent records when it has no products or the collaborator fails. */
  function ErrorIssue(message: string): Issue {
    Issue(Some("error"), None, None, None, Some(message))
  }

  /** True when the issue's `type` is exactly "critical". */
  predicate IsCriticalType(i: Issue) {
    i.kind == Some("critical")
  }

  /** Number of issues whose `type` is "critical". */
  function CriticalTypeCount(issues: seq<Issue>): (n: nat)
    ensures n <= |issues|
    ensures n == 0 <==> forall k :: 0 <= k < |issues| ==> !IsCriticalType(issues[k])
  {
    if issues == [] then 0
    else (if IsCriticalType(issues[0]) then 1 else 0) + CriticalTypeCount(issues[1..])
  }

  /** A message classification; only its `type` matters to the pipeline. */
  datatype Classification = Classification(kind: Option<string>)

  /** Provenance entries of a proposal, in place of the `"<key>: <value>"` strings. */
  datatype Signal = CompetitorPriceSignal(price: real) | SentimentSignal(score: real) | CostFloorSignal(floor: real)

  /** The reasoning fragments the pricing rules record. */
  datatype Reason = MatchCompetitor | NegativeSentimentBlock | MarginAdjustment | RaisedToCostFloor(floor: real) | NoChanges

  datatype ProposalStatus = Hold | Increase | Decrease

  /** A priced proposal for one product. */
  datatype Proposal = Proposal(productId: string, productName: string, currentPrice: real, proposedPrice: real,
                               status: ProposalStatus, reasoning: seq<Reason>, signals: seq<Signal>, cost: real)

  datatype ActionStatus = Locked | Blocked | Adjusted | Approved

  /** The note the resolver attaches to a non-approved action. */
  datatype Note = MerchantOverride | CatalogDataError | NegativeSentiment(score: real) | CostFloorRaise(floor: real)

  /**
   * A final action: every field of the proposal, plus the final price, the
   * action status (which takes the place of the proposal's own status) and an
   * optional note (approved actions carry none).
   */
  datatype Action = Action(proposal: Proposal, finalPrice: real, status: ActionStatus, note: Option<Note>)

  /** Warnings the resolver records while walking the proposals. */
  datatype Warning = CatalogCorruption(productId: string) | SentimentBlock(productId: string) | CostFloorAdjustment(productId: string)

  datatype AlertLevel = Green | Yellow | Red

  datatype RunStatus = Completed | Frozen

  datatype Summary = Summary(totalProducts: nat, approvedChanges: nat, blockedChanges: nat, lockedProducts: nat)

  datatype Recommendation =
    | AddressNegativeSentiment
    | ReviewCatalogIssues(issueCount: nat)
    | ManualAdjustments(warningCount: nat)
    | ReadyToApply(approvedCount: nat)
    | AllSystemsNormal
    | ReviewComplaints
    | InvestigateRootCause
    | PreparePublicResponse
    | HoldPricingChanges

  /** What the support agent leaves in `support_summary`. */
  datatype SupportSummary =
    | EmptySummary
    | NoData
    | SupportFailure(error: string, errorType: string)
    | Analysis(classifications: seq<Classification>, sentiment: real, velocity: real,
               topics: seq<string>, totalMessages: nat, complaintCount: nat)

  /** The numbers the throttler's alert message embeds. */
  datatype AlertMessage = SpikeAlert(velocity: real, sentiment: real)

  /** The run's final report; `NoReport` is the empty dictionary the coordinator seeds. */
  datatype Report =
    | NoReport
    | FrozenReport(status: RunStatus, alert: AlertLevel, alertMessage: AlertMessage, support: SupportSummary,
                   actionsTaken: seq<Action>, recommendations: seq<Recommendation>)
    | CompletedReport(status: RunStatus, alert: AlertLevel, summary: Summary, catalogIssues: seq<Issue>,
                      support: SupportSummary, pricingActions: seq<Action>, warnings: seq<Warning>,
                      recommendations: seq<Recommendation>)

  /** A validation flag; its producer is not part of this model and nothing here reads it. */
  datatype ValidationFlag = ValidationFlag(productId: string, kind: string, severity: string, message: string)

  /** Audit-log entries; `OtherEntry` stands for whatever the validator step may append. */
  datatype AuditEntry =
    | WorkflowStarted(merchantId: string)
    | ThrottlerActivated
    | WorkflowCompleted(alert: AlertLevel, actionsCount: nat)
    | OtherEntry(action: string)
}

=== FILE: state.dfy ===
/**
 * The shared blackboard threaded through every pipeline stage, and the
 * per-field merge policy the workflow runtime applies when a stage returns a
 * partial update.
 *
 * A state and a partial update have the same shape: `None` in a field means
 * the key is absent (from the state, or from the update). Five list fields
 * are merged by concatenation; every other field is replaced by the update's
 * value when the update carries one.
 */
module Blackboard {
  import opened Common
  import opened Records

  datatype State = State(
    merchantId: Option<string>,
    productData: Option<seq<Product>>,
    customerMessages: Option<seq<Message>>,
    pricingContext: Option<seq<PricingContext>>,
    competitorData: Option<seq<CompetitorRecord>>,
    normalizedCatalog: Option<seq<Product>>,     // append
    catalogIssues: Option<seq<Issue>>,           // append
    supportSummary: Option<SupportSummary>,
    sentimentScore: Option<real>,
    complaintSpikeDetected: Option<bool>,
    pricingProposals: Option<seq<Proposal>>,     // append
    validationFlags: Option<seq<ValidationFlag>>, // append
    schemaValidationPassed: Option<bool>,
    throttleModeActive: Option<bool>,
    retryCount: Option<int>,
    merchantLocks: Option<set<string>>,
    finalReport: Option<Report>,
    auditLog: Option<seq<AuditEntry>>)           // append

  /** The state with no key set; also the update that changes nothing. */
  const Blank: State := State(None, None, None, None, None, None, None, None, None,
                              None, None, None, None, None, None, None, None, None)

  /** Append policy: an absent list reads as empty, and the update's list goes after it. */
  function Append<T>(prev: Option<seq<T>>, upd: Option<seq<T>>): (r: Option<seq<T>>)
    ensures upd.None? ==> r == prev
    ensures upd.Some? ==> r.Some? && prev.GetOr([]) <= r.value && r.value[|prev.GetOr([])|..] == upd.value
  {
    match upd
    case None => prev
    case Some(u) => Some(prev.GetOr([]) + u)
  }

  /** Replace policy: last write wins. */
  function Replace<T>(prev: Option<T>, upd: Option<T>): (r: Option<T>)
    ensures upd.Some? ==> r == upd
    ensures upd.None? ==> r == prev
  {
    if upd.Some? then upd else prev
  }

  /** The state after the runtime applies a stage's partial update. */
  function Merge(s: State, u: State): (m: State)
    ensures u == Blank ==> m == s
    ensures s.auditLog.GetOr([]) <= m.auditLog.GetOr([])
    ensures u.merchantLocks.Some? ==> m.merchantLocks == u.merchantLocks
  {
    State(
      Replace(s.merchantId, u.merchantId),
      Replace(s.productData, u.productData),
      Replace(s.customerMessages, u.customerMessages),
      Replace(s.pricingContext, u.pricingContext),
      Replace(s.competitorData, u.competitorData),
      Append(s.normalizedCatalog, u.normalizedCatalog),
      Append(s.catalogIssues, u.catalogIssues),
      Replace(s.supportSummary, u.supportSummary),
      Replace(s.sentimentScore, u.sentimentScore),
      Replace(s.complaintSpikeDetected, u.complaintSpikeDetected),
      Append(s.pricingProposals, u.pricingProposals),
      Append(s.validationFlags, u.validationFlags),
      Replace(s.schemaValidationPassed, u.schemaValidationPassed),
      Replace(s.throttleModeActive, u.throttleModeActive),
      Replace(s.retryCount, u.retryCount),
      Replace(s.merchantLocks, u.merchantLocks),
      Replace(s.finalReport, u.finalReport),
      Append(s.auditLog, u.auditLog))
  }

  /** The five list fields accumulate: the merged list is the old list followed by the update's. */
  lemma MergeAppendsLists(s: State, u: State)
    ensures var m := Merge(s, u);
      && m.normalizedCatalog.GetOr([]) == s.normalizedCatalog.GetOr([]) + u.normalizedCatalog.GetOr([])
      && m.catalogIssues.GetOr([]) == s.catalogIssues.GetOr([]) + u.catalogIssues.GetOr([])
      && m.pricingProposals.GetOr([]) == s.pricingProposals.GetOr([]) + u.pricingProposals.GetOr([])
      && m.validationFlags.GetOr([]) == s.validationFlags.GetOr([]) + u.validationFlags.GetOr([])
      && m.auditLog.GetOr([]) == s.auditLog.GetOr([]) + u.auditLog.GetOr([])
  {
    var m := Merge(s, u);
    if u.normalizedCatalog.None? { assert s.normalizedCatalog.GetOr([]) + [] == s.normalizedCatalog.GetOr([]); }
    if u.catalogIssues.None? { assert s.catalogIssues.GetOr([]) + [] == s.catalogIssues.GetOr([]); }
    if u.pricingProposals.None? { assert s.pricingProposals.GetOr([]) + [] == s.pricingProposals.GetOr([]); }
    if u.validationFlags.None? { assert s.validationFlags.GetOr([]) + [] == s.validationFlags.GetOr([]); }
    if u.auditLog.None? { assert s.auditLog.GetOr([]) + [] == s.auditLog.GetOr([]); }
  }

  /** Every other field is last-write-wins: the update's value if it has one, else the old value. */
  lemma MergeReplacesScalars(s: State, u: State)
    ensures var m := Merge(s, u);
      && m.merchantId == (if u.merchantId.Some? then u.merchantId else s.merchantId)
      && m.productData == (if u.productData.Some? then u.productData else s.productData)
      && m.customerMessages == (if u.customerMessages.Some? then u.customerMessages else s.customerMessages)
      && m.pricingContext == (if u.pricingContext.Some? then u.pricingContext else s.pricingContext)
      && m.competitorData == (if u.competitorData.Some? then u.competitorData else s.competitorData)
      && m.supportSummary == (if u.supportSummary.Some? then u.supportSummary else s.supportSummary)
      && m.sentimentScore == (if u.sentimentScore.Some? then u.sentimentScore else s.sentimentScore)
      && m.complaintSpikeDetected == (if u.complaintSpikeDetected.Some? then u.complaintSpikeDetected else s.complaintSpikeDetected)
      && m.schemaValidationPassed == (if u.schemaValidationPassed.Some? then u.schemaValidationPassed else s.schemaValidationPassed)
      && m.throttleModeActive == (if u.throttleModeActive.Some? then u.throttleModeActive else s.throttleModeActive)
      && m.retryCount == (if u.retryCount.Some? then u.retryCount else s.retryCount)
      && m.merchantLocks == (if u.merchantLocks.Some? then u.merchantLocks else s.merchantLocks)
      && m.finalReport == (if u.finalReport.Some? then u.finalReport else s.finalReport)
  {
  }

  /** An update that leaves every key out changes nothing, and merging into the blank state yields the update. */
  lemma MergeIdentity(s: State)
    ensures Merge(s, Blank) == s
    ensures Merge(Blank, s) == s
  {
    assert Merge(Blank, s).normalizedCatalog == s.normalizedCatalog by {
      if s.normalizedCatalog.Some? { assert [] + s.normalizedCatalog.value == s.normalizedCatalog.value; }
    }
    assert Merge(Blank, s).catalogIssues == s.catalogIssues by {
      if s.catalogIssues.Some? { assert [] + s.catalogIssues.value == s.catalogIssues.value; }
    }
    assert Merge(Blank, s).pricingProposals == s.pricingProposals by {
      if s.pricingProposals.Some? { assert [] + s.pricingProposals.value == s.pricingProposals.value; }
    }
    assert Merge(Blank, s).validationFlags == s.validationFlags by {
      if s.validationFlags.Some? { assert [] + s.validationFlags.value == s.validationFlags.value; }
    }
    assert Merge(Blank, s).auditLog == s.auditLog by {
      if s.auditLog.Some? { assert [] + s.auditLog.value == s.auditLog.value; }
    }
  }

  /** Merging is associative, so a run's updates may be combined before they are applied. */
  lemma MergeAssociative(s: State, u: State, v: State)
    ensures Merge(Merge(s, u), v) == Merge(s, Merge(u, v))
  {
    AppendAssociative(s.normalizedCatalog, u.normalizedCatalog, v.normalizedCatalog);
    AppendAssociative(s.catalogIssues, u.catalogIssues, v.catalogIssues);
    AppendAssociative(s.pricingProposals, u.pricingProposals, v.pricingProposals);
    AppendAssociative(s.validationFlags, u.validationFlags, v.validationFlags);
    AppendAssociative(s.auditLog, u.auditLog, v.auditLog);
  }

  lemma AppendAssociative<T>(a: Option<seq<T>>, b: Option<seq<T>>, c: Option<seq<T>>)
    ensures Append(Append(a, b), c) == Append(a, Append(b, c))
  {
    if b.Some? && c.Some? {
      assert a.GetOr([]) + b.value + c.value == a.GetOr([]) + (b.value + c.value);
    } else if c.Some? {
      assert [] + c.value == c.value;
    }
  }

  /** The old contents of every list field survive a merge as a prefix. */
  lemma MergeKeepsPrefix(s: State, u: State)
    ensures var m := Merge(s, u);
      && s.normalizedCatalog.GetOr([]) <= m.normalizedCatalog.GetOr([])
      && s.catalogIssues.GetOr([]) <= m.catalogIssues.GetOr([])
      && s.pricingProposals.GetOr([]) <= m.pricingProposals.GetOr([])
      && s.validationFlags.GetOr([]) <= m.validationFlags.GetOr([])
      && s.auditLog.GetOr([]) <= m.auditLog.GetOr([])
  {
  }

  /** An update whose list fields are empty or absent leaves every list's contents as they were. */
  lemma EmptyListsDoNotReset(s: State, u: State)
    requires u.normalizedCatalog.GetOr([]) == [] && u.catalogIssues.GetOr([]) == []
    requires u.pricingProposals.GetOr([]) == [] && u.validationFlags.GetOr([]) == []
    ensures var m := Merge(s, u);
      && m.normalizedCatalog.GetOr([]) == s.normalizedCatalog.GetOr([])
      && m.catalogIssues.GetOr([]) == s.catalogIssues.GetOr([])
      && m.pricingProposals.GetOr([]) == s.pricingProposals.GetOr([])
      && m.validationFlags.GetOr([]) == s.validationFlags.GetOr([])
  {
    MergeAppendsLists(s, u);
    assert s.normalizedCatalog.GetOr([]) + [] == s.normalizedCatalog.GetOr([]);
    assert s.catalogIssues.GetOr([]) + [] == s.catalogIssues.GetOr([]);
    assert s.pricingProposals.GetOr([]) + [] == s.pricingProposals.GetOr([]);
    assert s.validationFlags.GetOr([]) + [] == s.validationFlags.GetOr([]);
  }
}

=== FILE: support_agent.dfy ===
/**
 * The deterministic part of the support agent: fallbacks for no messages and
 * for a failed classification call, complaint counting, and the derived
 * complaint-spike flag. The classification collaborator is a function
 * parameter applied to the first twenty messages.
 */
module Support {
  import opened Common
  import opened Records
  import opened Blackboard

  /** What the classification collaborator answers, keys possibly missing. */
  datatype SupportResult = SupportResult(classifications: Option<seq<Classification>>, sentiment: Option<real>,
                                         velocity: Option<real>, topics: Option<seq<string>>, spike: Option<bool>)

  /** A collaborator call either returns a result or fails (exception, or a non-dictionary answer). */
  datatype SupportOutcome = SupportReturned(result: SupportResult) | SupportFailed(error: string, errorType: string)

  /** The three keys the support agent writes. */
  datatype SupportOutput = SupportOutput(summary: SupportSummary, sentiment: real, spike: bool)

  const AnalysedMessages: nat := 20
  const VelocityThreshold: real := 7.0
  const ComplaintRatioThreshold: real := 0.5

  predicate IsComplaint(c: Classification) { c.kind == Some("Complaint") }

  /** Number of classifications whose type is "Complaint". */
  function ComplaintCount(cls: seq<Classification>): (n: nat)
    ensures n <= |cls|
    ensures n == 0 <==> forall k :: 0 <= k < |cls| ==> !IsComplaint(cls[k])
    ensures n == |cls| <==> forall k :: 0 <= k < |cls| ==> IsComplaint(cls[k])
  {
    if cls == [] then 0
    else (if IsComplaint(cls[0]) then 1 else 0) + ComplaintCount(cls[1..])
  }

  /**
   * Counting distributes over concatenation; with the contract above (which
   * fixes the count of a one-element list) this determines every count.
   */
  lemma {:induction false} ComplaintCountAppend(a: seq<Classification>, b: seq<Classification>)
    ensures ComplaintCount(a + b) == ComplaintCount(a) + ComplaintCount(b)
  {
    if a == [] {
      assert a + b == b;
    } else {
      assert (a + b)[1..] == a[1..] + b;
      ComplaintCountAppend(a[1..], b);
    }
  }

  /** Share of complaints among the classifications, 0 when there are none. */
  function ComplaintRatio(cls: seq<Classification>): (r: real)
    ensures 0.0 <= r <= 1.0
    ensures r > ComplaintRatioThreshold <==> 2 * ComplaintCount(cls) > |cls|
  {
    if cls == [] then 0.0
    else
      var r := ComplaintCount(cls) as real / |cls| as real;
      ShareBounds(ComplaintCount(cls) as real, |cls| as real);
      r
  }

  /** A share n/d of a positive whole lies in [0, 1] and exceeds one half exactly when 2n > d. */
  lemma ShareBounds(n: real, d: real)
    requires 0.0 < d && 0.0 <= n <= d
    ensures 0.0 <= n / d <= 1.0
    ensures n / d > 0.5 <==> 2.0 * n > d
  {
    var q := n / d;
    assert n == q * d;
    if q > 0.5 {
      PositiveProduct(q - 0.5, d);
      assert (q - 0.5) * d == q * d - 0.5 * d;
    } else {
      NonNegativeProduct(0.5 - q, d);
      assert (0.5 - q) * d == 0.5 * d - q * d;
    }
  }

  lemma PositiveProduct(a: real, b: real)
    requires a > 0.0 && b > 0.0
    ensures a * b > 0.0
  {
  }

  lemma NonNegativeProduct(a: real, b: real)
    requires a >= 0.0 && b > 0.0
    ensures a * b >= 0.0
  {
  }

  /** The spike rule: the collaborator's flag, or velocity above 7, or more than half complaints. */
  function SpikeRule(flag: bool, velocity: real, cls: seq<Classification>): (spike: bool)
    ensures spike <==> flag || velocity > VelocityThreshold || 2 * ComplaintCount(cls) > |cls|
  {
    flag || velocity > VelocityThreshold || ComplaintRatio(cls) > ComplaintRatioThreshold
  }

  /** The support agent over the message list and the collaborator. */
  function SupportAgent(messages: seq<Message>, classify: seq<Message> -> SupportOutcome): (r: SupportOutput)
    ensures messages == [] ==> r == SupportOutput(NoData, 0.0, false)
    ensures messages != [] && classify(Take(messages, AnalysedMessages)).SupportFailed? ==>
      var o := classify(Take(messages, AnalysedMessages));
      r == SupportOutput(SupportFailure(o.error, o.errorType), 0.0, false)
    ensures messages != [] && classify(Take(messages, AnalysedMessages)).SupportReturned? ==>
      var res := classify(Take(messages, AnalysedMessages)).result;
      var cls := res.classifications.GetOr([]);
      && r.summary == Analysis(cls, res.sentiment.GetOr(0.0), res.velocity.GetOr(0.0), res.topics.GetOr([]),
                               |messages|, ComplaintCount(cls))
      && r.sentiment == res.sentiment.GetOr(0.0)
      && r.spike == SpikeRule(res.spike.GetOr(false), res.velocity.GetOr(0.0), cls)
    ensures r.spike ==> r.summary.Analysis?
    ensures r.summary.Analysis? ==>
      && messages != []
      && r.sentiment == r.summary.sentiment
      && r.summary.totalMessages == |messages|
      && r.summary.complaintCount == ComplaintCount(r.summary.classifications)
      && (r.spike <==> SpikeRule(classify(Take(messages, AnalysedMessages)).result.spike.GetOr(false),
                                 r.summary.velocity, r.summary.classifications))
  {
    if messages == [] then SupportOutput(NoData, 0.0, false)
    else
      match classify(Take(messages, AnalysedMessages))
      case SupportFailed(e, t) => SupportOutput(SupportFailure(e, t), 0.0, false)
      case SupportReturned(res) =>
        var cls := res.classifications.GetOr([]);
        var sentiment := res.sentiment.GetOr(0.0);
        var velocity := res.velocity.GetOr(0.0);
        var spike := SpikeRule(res.spike.GetOr(false), velocity, cls);
        SupportOutput(Analysis(cls, sentiment, velocity, res.topics.GetOr([]), |messages|, ComplaintCount(cls)),
                      sentiment, spike)
  }

  /** The support stage: writes exactly the summary, the sentiment score and the spike flag. */
  function SupportNode(s: State, classify: seq<Message> -> SupportOutcome): (u: State)
    ensures u == Blank.(supportSummary := u.supportSummary, sentimentScore := u.sentimentScore,
                        complaintSpikeDetected := u.complaintSpikeDetected)
    ensures var out := SupportAgent(s.customerMessages.GetOr([]), classify);
      && u.supportSummary == Some(out.summary)
      && u.sentimentScore == Some(out.sentiment)
      && u.complaintSpikeDetected == Some(out.spike)
  {
    var out := SupportAgent(s.customerMessages.GetOr([]), classify);
    Blank.(supportSummary := Some(out.summary), sentimentScore := Some(out.sentiment),
           complaintSpikeDetected := Some(out.spike))
  }

  // ---------------------------------------------------------------- properties

  /** The thresholds are strict: velocity exactly 7 with an exactly-half complaint share does not trip the spike. */
  lemma ThresholdsAreStrict(cls: seq<Classification>)
    requires |cls| > 0 && 2 * ComplaintCount(cls) == |cls|
    ensures !SpikeRule(false, VelocityThreshold, cls)
  {
  }

  /** Only the first twenty messages reach the collaborator: later ones change nothing but the message total. */
  lemma OnlyFirstTwentyAnalysed(m1: seq<Message>, m2: seq<Message>, classify: seq<Message> -> SupportOutcome)
    requires m1 != [] && m2 != []
    requires Take(m1, AnalysedMessages) == Take(m2, AnalysedMessages)
    ensures var r1 := SupportAgent(m1, classify);
      var r2 := SupportAgent(m2, classify);
      && r1.sentiment == r2.sentiment && r1.spike == r2.spike
      && (r1.summary.Analysis? <==> r2.summary.Analysis?)
      && (r1.summary.Analysis? ==> r1.summary.(totalMessages := |m2|) == r2.summary)
      && (!r1.summary.Analysis? ==> r1.summary == r2.summary)
  {
  }

  /** A collaborator that says no spike but reports velocity 8 still trips the spike. */
  lemma VelocityAloneTripsSpike(messages: seq<Message>, classify: seq<Message> -> SupportOutcome)
    requires messages != []
    requires classify(Take(messages, AnalysedMessages)) == SupportReturned(SupportResult(Some([]), Some(0.0), Some(8.0), Some([]), Some(false)))
    ensures SupportAgent(messages, classify).spike
  {
  }
}
